=== FILE: README.md ===
# platformio-node-helpers: provisioning stage and PIO Home supervisor

This project models two parts of the PlatformIO IDE helpers:

- The **PlatformIO Core provisioning stage** (`PlatformIOCoreStage`). It does four things:
  - keeps the persisted record `{pioCoreChecked, lastIDEVersion}` and the three-day auto-upgrade;
  - `check()`s the installed toolchain against a minimum version;
  - `install()`s the managed virtual environment. The chain is: clean the old environment, then conda if present. Otherwise it looks for a Python interpreter, which may mean installing Python from the MSI on Windows or prompting the user. Then it tries the user's `virtualenv`, falls back to a downloaded `virtualenv.py`, and finally runs `pip install platformio`, retrying once without `--no-cache-dir`;
  - tracks the stage status PENDING / INSTALLING / SUCCEEDED / FAILED.
- The **PIO Home supervisor** (`home.js`). It covers:
  - the free-port scan over 8010..8999 on 127.0.0.1;
  - the memoised port;
  - the start-or-reuse decision of `ensureServerStarted`, including the launch command, the readiness wait (500 ms interval, 15 s timeout) and the optional command channel;
  - the `listenIDECommands` channel, which keeps one `ide.listen_commands` request outstanding and dispatches successful answers to the IDE callback;
  - `showAtStartup`.

The style is functional:

- Every operation is a pure function over immutable records.
- The outside world is a set of oracle inputs: process exit codes, download and extraction results, filesystem answers, port probes, prompt replies and the clock.
- Each operation returns a trace of the `Effects.Effect` values it issues, in order.
- JavaScript values that the code inspects dynamically are modelled by `Js.Value`. This covers the stored state and the parsed `homestate.json`. The IDE-version variable `process.env.PLATFORMIO_IDE` is an `Option<string>`, turned into a `Js.Value` only when it is stored. The model follows JavaScript's truthiness, property access and `parseInt`, and `hasOwnProperty` for values that do not own a key named `hasOwnProperty` themselves.

Modules:

| file | module | models |
|---|---|---|
| `wrappers.dfy` | `Wrappers` | `Option` |
| `js.dfy` | `Js` | JS values, truthiness, own properties, `parseInt`, decimal rendering |
| `platform.dfy` | `Platform` | host, directories, `path.join`, `path.basename` |
| `effects.dfy` | `Effects` | the effects the core issues |
| `failures.dfy` | `Failures` | the errors the stage raises |
| `seqs.dfy` | `Seqs` | `Array.prototype.filter(x => x !== v)` |
| `core_state.dfy` | `CoreState` | `initState`, `autoUpgradePIOCore` |
| `interpreter.dfy` | `Interpreter` | `whereIsPython`, `installPythonForWindows`, `installPythonFromWindowsMSI` |
| `virtualenv.dfy` | `Virtualenv` | `cleanVirtualEnvDir`, the creation commands, `createVirtualenvWithDownload`, `installPIOCore` |
| `core_stage.dfy` | `CoreStage` | `install()`, `check()`, the status |
| `home.dfy` | `Home` | `findFreePort`, `isServerStarted`, `ensureServerStarted`, `showAtStartup` |
| `channel.dfy` | `CommandChannel` | `listenIDECommands` |

Points where the code behaves in a way a reader might not expect, all modelled as the code does them:

- A failure inside the creation chain leaves the status at INSTALLING. This covers a failed `conda create`, a failed downloaded virtualenv and a second failed `pip`. The raised error is the specific rejection of the failing step, not a generic creation error. Only a missing interpreter sets FAILED.
- FAILED is not terminal. `install()` runs the chain again from FAILED, because it short-circuits only on SUCCEEDED.
- Port exhaustion is not an error. `findFreePort` answers 0 and `ensureServerStarted` carries on with port 0. Because the port stays 0, the next call scans again.
- The channel never reconnects. The reconnect record and the close handler's back-off are inert in the code.

## Model

| member | source | states |
|---|---|---|
| CoreState.InitState | src/installer/stages/platformio-core.js:250-259 | The stored state is kept exactly when it is truthy and owns both `pioCoreChecked` and `lastIDEVersion`. Otherwise the result is the record `{pioCoreChecked: 0, lastIDEVersion: null}`. The result always holds both keys. |
| CoreState.InitStateIdempotent | src/installer/stages/platformio-core.js:250-259 | Defaulting is stable. A state that went through `initState` comes out of it unchanged, and so does every encoded record. |
| CoreState.WellShapedIsObject | src/installer/stages/platformio-core.js:252 | Only an object can pass the `hasOwnProperty` test for both keys. Strings and arrays own neither. |
| CoreState.AutoUpgrade | src/installer/stages/platformio-core.js:261-296 | When the trigger holds, the check time becomes `now` and `upgrade` then `update --core-packages` run, in that order. When it does not hold, nothing runs and the check time is kept. In both cases `lastIDEVersion` becomes the environment variable (`undefined` when unset), and every other field is kept. |
| CoreState.UpgradeDueOnRecord | src/installer/stages/platformio-core.js:264-267 | On a typed record, the trigger holds iff one of two things is true. Either the IDE variable is non-empty and the stored version is non-empty and different from it. Or strictly more than three days have passed since the check. A `null` stored version never triggers the version branch. |
| CoreState.UpgradeWindowBoundary | src/installer/stages/platformio-core.js:264-267 | The three-day window is strict. At exactly 259 200 000 ms after the check nothing is due; one millisecond later the upgrade is due. |
| CoreState.CheckedNeverDecreases | src/installer/stages/platformio-core.js:264-268 | With a clock that does not go backwards, the stored check time never decreases. |
| CoreState.NoSecondUpgradeWithinWindow | src/installer/stages/platformio-core.js:261-296 | After an upgrade ran, a second auto-upgrade that reads the very state object the first one left, with the same IDE variable, within three days issues no command. |
| CoreState.CheckExpiredOfText | src/installer/stages/platformio-core.js:266 | A check time stored as decimal text (possibly followed by non-numeric text) is read by `parseInt`: the window has expired iff more than three days passed since the number the text spells. |
| CoreState.Persisted | src/installer/stages/platformio-core.js:295 | Saving the state as JSON keeps exactly the members whose value is not `undefined`, with their values; non-objects are unchanged. |
| CoreState.NoSecondUpgradeAfterReload | src/installer/stages/platformio-core.js:261-296 | With the IDE variable set, the no-second-upgrade promise also holds when the saved state is reloaded from JSON. |
| CoreState.UnsetIdeVersionResetsOnReload | src/installer/stages/platformio-core.js:250-296 | With the IDE variable unset, the saved state loses `lastIDEVersion`, so after a reload `initState` restarts from `{pioCoreChecked: 0, lastIDEVersion: null}`, and any clock past three days after the epoch makes the upgrade run again. |
| Virtualenv.CleanVirtualEnvDir | src/installer/stages/platformio-core.js:125-137 | An absent environment directory is not touched and the answer is true. A present one is removed, and the answer is false exactly when the removal throws. |
| Virtualenv.FindScript | src/installer/stages/platformio-core.js:187-191 | The result is the index of the first tree entry whose basename is `virtualenv.py`, or none when no entry has that name. |
| Virtualenv.CreateWithDownload | src/installer/stages/platformio-core.js:177-210 | The pinned archive download comes first and no other download follows. A failed download or extraction, or a missing script, each ends in its own error. A failed extraction stops right after the download and the extraction, and without a script the interpreter is never run. With a script the interpreter runs it against the environment directory, and the extracted tree is removed afterwards whatever the exit code. Success holds iff the exit code is 0. |
| Virtualenv.InstallPioCore | src/installer/stages/platformio-core.js:212-248 | There are one or two runs, all of the same `pip`: the environment's own `pip` in development mode, plain `pip` otherwise. The install succeeds iff one of the two exit codes is 0. The error carries the second exit code. |
| Virtualenv.PipRetryDropsOnlyCacheFlag | src/installer/stages/platformio-core.js:212-247 | The first run is `install --no-cache-dir -U <package>`. A second run happens exactly when the first exits non-zero, and its arguments are the same with only `--no-cache-dir` removed, in order. |
| Seqs.WithoutRemovesOnly | src/installer/stages/platformio-core.js:237 | Filtering out one argument removes every copy of it and keeps every other argument with its multiplicity. |
| Seqs.WithoutIsSubsequence | src/installer/stages/platformio-core.js:237 | The filtered arguments keep their relative order. |
| Interpreter.InstallFromMsi | src/installer/stages/platformio-core.js:97-123 | There is one `msiexec.exe` run with six arguments: `/a` for an administrative install and `/i` otherwise, the installer, and `TARGETDIR=<home>/python27`. It succeeds iff the exit code is 0 and `python.exe` then exists. |
| Interpreter.InstallPythonForWindows | src/installer/stages/platformio-core.js:62-95 | Only the MSI download, `msiexec.exe` and `pip` are issued. An interpreter results iff the download succeeds and one of three holds: `python.exe` was already present, the normal run produced it, or the administrative run produced it. On success the result is `<home>/python27/python.exe`, and the search path gets the target directory and its `Scripts` prepended. On failure the search path is unchanged. |
| Interpreter.WindowsInstallOrder | src/installer/stages/platformio-core.js:62-95 | The MSI download is the first effect. When `python.exe` is already present, no `msiexec.exe` runs. Otherwise the normal run comes second, and another `msiexec.exe` run follows iff the normal run did not produce the interpreter. That run is the single administrative (`/a`) run, third in the trace, and no `msiexec.exe` run follows it. `pip install virtualenv` is the last effect on success and never runs on failure. |
| Interpreter.RunRound | src/installer/stages/platformio-core.js:38-59 | Each iteration starts with one interpreter search. It issues only search, prompt and Windows-installation effects. An iteration that does not decide leaves the search path unchanged. |
| Interpreter.RoundDecisions | src/installer/stages/platformio-core.js:39-58 | If an interpreter is found on the path, it is returned with no other effect. Otherwise on Windows a successful installation returns its `python.exe`. On other hosts nothing is installed, and the iteration issues exactly the search and the prompt. Otherwise the user is prompted, as the last effect: CUSTOMEXE returns the user's path, ABORT returns nothing, and any other status loops. The prompt appears iff neither search nor installation produced an interpreter. |
| Interpreter.RoundsTraceEffects | src/installer/stages/platformio-core.js:37-60 | Everything the interpreter search issues is a search, a prompt or a Windows-installation effect. |
| Interpreter.WhereIsPython | src/installer/stages/platformio-core.js:37-60 | The search returns the answer of the first iteration that decides, and every earlier iteration looped. The effects are those of the iterations run, in order. It is still waiting only when no supplied iteration decides. |
| Interpreter.FirstFoundIsReturned | src/installer/stages/platformio-core.js:39-43 | An interpreter found by the first search is returned at once, with no prompt and no installation. |
| CoreStage.CondaRouteTriesNothingElse | src/installer/stages/platformio-core.js:145-159 | The conda route starts with `conda create --yes --quiet python=2 --prefix <envDir>` and issues it nowhere else. A non-zero exit raises the conda error and stops right there. The route never searches for an interpreter, prompts, downloads or runs `virtualenv`. |
| CoreStage.VirtualenvFallbackOnce | src/installer/stages/platformio-core.js:341-346 | The user's `virtualenv -p <python> <envDir>` runs first and at no other position. The virtualenv archive is downloaded only when that run fails, right after it, and at no other position. |
| CoreStage.FinishInstall | src/installer/stages/platformio-core.js:349-352 | After creation, the package install runs. The stage becomes SUCCEEDED iff one `pip` run exits 0. Otherwise it stays INSTALLING and raises the `pip` error. |
| CoreStage.Install | src/installer/stages/platformio-core.js:321-331 | When the stage has already succeeded, or managed mode is off, `install()` issues nothing and sets SUCCEEDED. Otherwise every trace starts with the clean-up and the conda probe. |
| CoreStage.CreationRoutesSettle | src/installer/stages/platformio-core.js:333-352 | Every creation route ends in SUCCEEDED with success, or stays INSTALLING with an error. |
| CoreStage.InstallStatusDiscipline | src/installer/stages/platformio-core.js:321-353 | `install()` never leaves PENDING and never changes the parameters or the state. It reports success iff it sets SUCCEEDED, and it sets FAILED iff it raises interpreter-not-found. |
| CoreStage.InstallIdempotent | src/installer/stages/platformio-core.js:322-324 | After a successful `install()`, another call issues nothing and succeeds, whatever the world answers. |
| CoreStage.SucceededOnlyAfterPip | src/installer/stages/platformio-core.js:349-352 | When `install()` builds and succeeds, its last effect is a `pip` run and one of the `pip` exit codes was 0. |
| CoreStage.InstallWithConda | src/installer/stages/platformio-core.js:331-334 | With conda present, the effect right after the clean-up and the probe is `conda create`, and it occurs nowhere else. There is no interpreter search, prompt, download or `virtualenv` run. A conda failure raises right after `conda create`. |
| CoreStage.SearchIssuesNoCreation | src/installer/stages/platformio-core.js:37-60 | The interpreter search never creates an environment: no `conda create`, no virtualenv archive download and no `virtualenv` run. |
| CoreStage.InstallWithoutInterpreter | src/installer/stages/platformio-core.js:336-340 | Without conda and without an interpreter, `install()` sets FAILED and raises interpreter-not-found. It issues no `conda create`, no virtualenv archive download and no `virtualenv` run. |
| CoreStage.InterpreterRouteFallbackOnce | src/installer/stages/platformio-core.js:336-346 | Once an interpreter is found, the user's virtualenv runs right after the search. The archive download happens at the next position, only when that run failed, and nowhere else. |
| CoreStage.InstallFallbackOnce | src/installer/stages/platformio-core.js:329-346 | Without conda but with an interpreter, `install()` places the user's virtualenv right after the clean-up, the probe and the search. It downloads the virtualenv archive exactly once, right after a failed user virtualenv, and otherwise never. |
| CoreStage.FallbackScenario | src/installer/stages/platformio-core.js:321-353 | A worked run on Linux: no environment directory, no conda, `python` found, a failing user virtualenv, and a downloaded `virtualenv.py` that succeeds. This yields exactly the effects probe, search, user virtualenv, download, extract, script, clean-up, pip, and the status SUCCEEDED. |
| CoreStage.Check | src/installer/stages/platformio-core.js:298-319 | In managed mode, a missing environment raises before any effect. Otherwise, in managed mode only, the auto-upgrade runs and its state is saved, and then the version is queried. The trace is exactly the upgrade's commands, the query, and the setter call when the version is below the minimum. A rejected version query raises its own error, and so does a version `semver.lt` cannot compare. Below the minimum, the setter `setUseBuiltinPIOCore(true)` is called as the last effect, and the call raises with the status unchanged; the setter is called in no other case. The stage becomes SUCCEEDED iff the version compares as not below the minimum. The parameters are never written by `check()` itself. |
| CoreStage.IncompatibleVersionForcesInstall | src/installer/stages/platformio-core.js:311-313 | After an incompatible-version failure, the last effect is the setter call. Under the hypothesis that the setter writes the stage's own parameters, the next `install()` of a stage that has not succeeded builds the managed environment and probes for conda after the clean-up. |
| Home.FirstFreeFromIsLeast | src/home.js:72-90 | The scan answers 0 iff every port of 8010..8999 is in use. Otherwise it answers the least port whose check did not report "in use", counting a rejected check as free. |
| Home.FindFreePort | src/home.js:72-90 | The loop probes 8010, 8011, ... in order and stops at the first free port. It answers that port, or 0 after probing the whole range, and this agrees with the reference scan. |
| Home.ScanExamples | src/home.js:72-90 | With 8010..8014 taken and 8015 free, the scan answers 8015. With every port taken, it answers 0. |
| Home.IsServerStarted | src/home.js:92-101 | The server counts as started iff its port is in use. A rejected check counts as not started. |
| Home.EnsureServerStarted | src/home.js:103-106 | The port is scanned for only while it is still 0. |
| Home.RunningServerIsReused | src/home.js:107-113 | With the server already up, the answer is `{127.0.0.1, port}`. After the probes nothing is issued: no launch, no wait and no channel. |
| Home.StoppedServerIsLaunched | src/home.js:114-126 | Otherwise the effects after the scan are the server probe, `home --port <port> --no-open`, and a wait with a 500 ms interval and a 15 000 ms timeout. A failed wait is an error. After a successful wait, a missing `options` argument is an error; otherwise the answer is the address, and the channel to the assigned port is opened last iff a callback was given. |
| Home.StoppedServerIsLaunchedOnce | src/home.js:114-125 | The server command is issued exactly once, right after the server probe. The channel to the assigned port is opened at most once, right after the wait. |
| Home.PortIsMemoised | src/home.js:104-106 | A non-zero port is reused and no port is probed. |
| Home.AssignedPortInRange | src/home.js:104-106 | A port assigned by a scan is 0, or a free port of the range. |
| Home.SessionKeepsPort | src/home.js:104-106 | Across any number of calls, once the port is set it never changes and no scan runs again. |
| Home.ShowAtStartup | src/home.js:133-145 | A missing or unparsable state file means true. For a parsed state, the answer is the caller's entry under `storage.showOnStartup` exactly when the state, `storage` and `showOnStartup` are all truthy and the caller is an own key there; in every other case it is true. |
| Home.ShowAtStartupOfStored | src/home.js:133-145 | For a stored flag map, the answer is the caller's flag when there is one and true otherwise. |
| Home.ShowAtStartupDefaults | src/home.js:140 | A falsy state, a falsy `storage`, a falsy `showOnStartup`, or a missing own caller key each mean true. |
| CommandChannel.OnEvent | src/home.js:36-65 | Opening sends one `ide.listen_commands` request and closing does nothing. A message calls the callback with the result's `method` and `params` only for a success whose result can be read. Every message then sends a new listen request, whatever happened. |
| CommandChannel.Listen | src/home.js:69 | The channel first connects to `http://127.0.0.1:<port>/wsrpc`. |
| CommandChannel.ListenPerArmingEvent | src/home.js:36-65 | Every open and every message sends exactly one listen request; a close sends none. |
| CommandChannel.CallbackPerSuccess | src/home.js:49-56 | The callback is called exactly for the readable success answers, in their order, with their `method` and `params`. |
| CommandChannel.NoReconnect | src/home.js:41-47 | No event opens another connection. |
| CommandChannel.ConnectsOnce | src/home.js:22-70 | The only connection is the first action, to the endpoint of the port the channel was opened for. |
| CommandChannel.OneOutstandingListen | src/home.js:36-65 | After the open and any number of messages, exactly one listen request is outstanding. |
| Js.ParseIntOfDecimal | src/installer/stages/platformio-core.js:266 | `parseInt` reads back the decimal text of a number, with or without a leading minus sign and followed by text that is not part of a number. |
| Js.ParseIndexIsDecimal | src/installer/stages/platformio-core.js:252 | A property key is an array or string index iff it is the canonical decimal of a natural number. |
| Platform.BasenameOfJoin | src/installer/stages/platformio-core.js:187-188 | The basename of a directory joined with a plain name is that name. |

## Left out

- Processes, downloads, tar extraction, the MSI installer, the filesystem and the user prompt are not executed. Their answers are oracle inputs, and the commands are effects in the trace.
- Console logging, `tmp.setGracefulCleanup` and the temporary directory object are left out. They do not influence any decision.
- `PEPverToSemver` and `semver.lt` are parameters (`toSemver`, `lessThan`) of `CoreStage.Check`. Version normalisation and semantic-version ordering are not modelled.
- `shutdownServer` is left out. It is a fire-and-forget HTTP GET with no result the core uses.
- SockJS and `jsonrpc-lite` are abstracted. A message arrives already classified as success (with its `result`), error, another kind, or unparsable.
- The `Math.random()` request ids are left out.
- The inert reconnect record of `listenIDECommands` is left out; nothing reads it.
- Asynchronous scheduling is left out. Each call is one sequential run, and overlapping calls are not modelled.
- Numbers are integers. Floating-point time values and `NaN` arithmetic beyond `parseInt` are not modelled.
- Js.ParseInt: arrays and objects read as NaN. JavaScript would first convert them to a string.
- Platform.Join: concatenates around the separator without normalising `..`, repeated separators or drive letters.
- Interpreter.WhereIsPython: the unbounded loop is driven by a finite list of iteration answers. When the answers run out without a decision, the result is `Waiting`, and `install()` reports `AwaitingPrompt`.
- CoreState.AutoUpgrade: the exit codes of `upgrade` and `update --core-packages` are ignored, as in the code. A rejection of the whole routine, which `check()` would log and swallow, is not modelled.
- The persistence of the stage state in `BaseStage` is not part of this model. The state is a field of the stage record; `CoreState.Persisted` stands for a JSON save and reload on the assumption that the storage is JSON.
- CoreState.NoSecondUpgradeWithinWindow: holds for the in-memory state object only. Across a JSON save and reload it holds only with the IDE variable set (`CoreState.NoSecondUpgradeAfterReload`); with it unset, the reload forgets the record (`CoreState.UnsetIdeVersionResetsOnReload`).
- Js.HasOwn: an object that owns a key named `hasOwnProperty` shadows the method, so the code's call throws. `showAtStartup` then catches the error and answers true, and `initState` would throw; the model answers by the own keys instead.
- CoreStage.Check: `setUseBuiltinPIOCore` is a caller-supplied function. Its call is recorded as the effect `SetUseBuiltinPIOCore(true)`, and what it does to the stage's parameters is not modelled.
- CoreStage.IncompatibleVersionForcesInstall: holds under the hypothesis that the setter writes the very parameters the stage reads (`SetterApplied`); the code does not guarantee that.
- Home.EnsureServerStarted: `options` is either nullish, where reading `onIDECommand` throws, or a value of which only the truthiness of `onIDECommand` matters; the callback itself is not passed on.
- `getPythonExecutable` and the `core` directory getters are outside this model. Their answers are oracle inputs (`Round.located`, `Dirs`).

=== FILE: channel.dfy ===
/** The IDE command channel of `listenIDECommands`: a SockJS connection to
    PIO Home that keeps exactly one `ide.listen_commands` request
    outstanding and hands every successful answer to the IDE callback. The
    socket, JSON-RPC parsing and the callback itself are left abstract;
    what remains is the per-event reaction. */
module CommandChannel {
  import opened Js
  import Home

  /** What `jsonrpc.parse(event.data)` yields for one message: a success
      with its `result`, an error, another kind, or a parse failure. */
  datatype Reply = SuccessReply(result: Value) | ErrorReply | OtherKind | Unparsable

  /** The socket events the channel reacts to. `callbackThrows` records
      whether the IDE callback throws while handling the message. */
  datatype Event = Opened | Message(reply: Reply, callbackThrows: bool) | Closed

  /** What the channel does: open the socket, send an `ide.listen_commands`
      request, or call the IDE callback with a method and its params. */
  datatype Action = Connect(endpoint: string) | SendListen | Dispatch(rpcMethod: Value, rpcParams: Value)

  /** The endpoint for the memoised port. */
  function Endpoint(port: nat): string {
    "http://" + Home.HOST + ":" + Decimal(port) + "/wsrpc"
  }

  /** Whether a reply reaches the callback: only a success whose `result`
      can be read (reading `method` of `undefined`/`null` throws and the
      message counts as invalid). */
  predicate Dispatches(reply: Reply) {
    reply.SuccessReply? && !Nullish(reply.result)
  }

  /** `onopen`, `onmessage` and `onclose`. A message calls the callback when
      it dispatches, then, whatever happened (an error answer, a parse
      failure, a throwing callback), sends a new listen request. Closing
      does nothing: there is no reconnect. */
  function OnEvent(e: Event): (r: seq<Action>)
    ensures e.Opened? ==> r == [SendListen]
    ensures e.Closed? ==> r == []
    ensures e.Message? ==> |r| >= 1 && r[|r| - 1] == SendListen
    ensures e.Message? && Dispatches(e.reply) ==>
              r == [Dispatch(Get(e.reply.result, "method"), Get(e.reply.result, "params")), SendListen]
    ensures e.Message? && !Dispatches(e.reply) ==> r == [SendListen]
  {
    match e
    case Opened => [SendListen]
    case Closed => []
    case Message(reply, _) =>
      var handled := if Dispatches(reply) then [Dispatch(Get(reply.result, "method"), Get(reply.result, "params"))] else [];
      handled + [SendListen]
  }

  /** The reactions to a sequence of events, in order. */
  function React(events: seq<Event>): seq<Action> {
    if |events| == 0 then [] else OnEvent(events[0]) + React(events[1..])
  }

  /** `listenIDECommands(callback)` over the events the socket delivers. */
  function Listen(port: nat, events: seq<Event>): (r: seq<Action>)
    ensures |r| >= 1 && r[0] == Connect(Endpoint(port))
  {
    [Connect(Endpoint(port))] + React(events)
  }

  // ---------------------------------------------------------------------
  // Reference counts

  function CountListens(actions: seq<Action>): nat {
    if |actions| == 0 then 0 else (if actions[0] == SendListen then 1 else 0) + CountListens(actions[1..])
  }

  /** Opens plus messages: the events that each re-arm the listen request. */
  function CountArming(events: seq<Event>): nat {
    if |events| == 0 then 0 else (if events[0].Closed? then 0 else 1) + CountArming(events[1..])
  }

  /** The callback invocations the events call for, in order. */
  function Calls(events: seq<Event>): seq<(Value, Value)> {
    if |events| == 0 then []
    else
      var e := events[0];
      (if e.Message? && Dispatches(e.reply) then [(Get(e.reply.result, "method"), Get(e.reply.result, "params"))] else [])
      + Calls(events[1..])
  }

  /** The callback invocations among the actions, in order. */
  function Dispatched(actions: seq<Action>): seq<(Value, Value)> {
    if |actions| == 0 then []
    else (if actions[0].Dispatch? then [(actions[0].rpcMethod, actions[0].rpcParams)] else []) + Dispatched(actions[1..])
  }

  lemma {:induction false} CountListensAppend(a: seq<Action>, b: seq<Action>)
    ensures CountListens(a + b) == CountListens(a) + CountListens(b)
  {
    if |a| > 0 {
      assert (a + b)[1..] == a[1..] + b;
      CountListensAppend(a[1..], b);
    } else {
      assert a + b == b;
    }
  }

  lemma {:induction false} DispatchedAppend(a: seq<Action>, b: seq<Action>)
    ensures Dispatched(a + b) == Dispatched(a) + Dispatched(b)
  {
    if |a| > 0 {
      assert (a + b)[1..] == a[1..] + b;
      DispatchedAppend(a[1..], b);
    } else {
      assert a + b == b;
    }
  }

  // ---------------------------------------------------------------------
  // Properties

  /** Every open and every message sends exactly one listen request; a
      close sends none. */
  lemma {:induction false} ListenPerArmingEvent(events: seq<Event>)
    ensures CountListens(React(events)) == CountArming(events)
  {
    if |events| > 0 {
      ListenPerArmingEvent(events[1..]);
      CountListensAppend(OnEvent(events[0]), React(events[1..]));
      var r := OnEvent(events[0]);
      if events[0].Message? && Dispatches(events[0].reply) {
        assert r[1..][1..] == [];
      } else if !events[0].Closed? {
        assert r[1..] == [];
      }
    }
  }

  /** The callback is called exactly for the dispatching success answers,
      in their order, with their `method` and `params`. */
  lemma {:induction false} CallbackPerSuccess(events: seq<Event>)
    ensures Dispatched(React(events)) == Calls(events)
  {
    if |events| > 0 {
      CallbackPerSuccess(events[1..]);
      DispatchedAppend(OnEvent(events[0]), React(events[1..]));
      var r := OnEvent(events[0]);
      if events[0].Message? && Dispatches(events[0].reply) {
        assert r[1..][1..] == [];
      } else if !events[0].Closed? {
        assert r[1..] == [];
      }
    }
  }

  /** Events never open another connection: the only connect is the first
      action. */
  lemma {:induction false} NoReconnect(events: seq<Event>)
    ensures forall i :: 0 <= i < |React(events)| ==> !React(events)[i].Connect?
  {
    if |events| > 0 {
      NoReconnect(events[1..]);
      var head := OnEvent(events[0]);
      var tail := React(events[1..]);
      var all: seq<Action> := head + tail;
      forall i | 0 <= i < |all|
        ensures !all[i].Connect?
      {
        if i >= |head| {
          assert all[i] == tail[i - |head|];
        }
      }
    }
  }

  /** The connection is opened once, to the supervisor's port. */
  lemma ConnectsOnce(port: nat, events: seq<Event>)
    ensures var r := Listen(port, events);
            forall i :: 0 <= i < |r| && r[i].Connect? ==> i == 0 && r[i].endpoint == Endpoint(port)
  {
    NoReconnect(events);
    var r := Listen(port, events);
    assert forall i :: 1 <= i < |r| ==> r[i] == React(events)[i - 1];
  }

  /** The number of listen requests sent but not yet answered by a message:
      one after the open, and it stays one after every message. */
  lemma OneOutstandingListen(messages: seq<Event>)
    requires forall i :: 0 <= i < |messages| ==> messages[i].Message?
    ensures CountListens(React([Opened] + messages)) - |messages| == 1
  {
    ListenPerArmingEvent([Opened] + messages);
    MessagesArm(messages);
    assert ([Opened] + messages)[1..] == messages;
  }

  lemma {:induction false} MessagesArm(messages: seq<Event>)
    requires forall i :: 0 <= i < |messages| ==> messages[i].Message?
    ensures CountArming(messages) == |messages|
  {
    if |messages| > 0 {
      MessagesArm(messages[1..]);
    }
  }
}

=== FILE: core_stage.dfy ===
/** The provisioning stage `PlatformIOCoreStage`: its status, `install()`
    with the creation fallback chain, and `check()`. */
module CoreStage {
  import opened Wrappers
  import opened Js
  import opened Platform
  import opened Effects
  import opened Failures
  import CoreState
  import opened Interpreter
  import opened Virtualenv

  /** `BaseStage.STATUS_*`. */
  datatype Status = Pending | Installing | Succeeded | Failed

  /** The stage parameters the core reads. `useBuiltinPIOCore` is also what
      `setUseBuiltinPIOCore(true)` switches on. */
  datatype Params = Params(useBuiltinPIOCore: bool, useDevelopmentPIOCore: bool, pioCoreMinVersion: string)

  /** The stage: its status, its parameters and its persisted state value. */
  datatype Stage = Stage(status: Status, params: Params, state: Value)

  /** How a call ends: it returned, it threw, or it is still waiting in the
      interpreter prompt loop when the supplied answers run out. */
  datatype Outcome = Done | Raised(failure: Failure) | AwaitingPrompt

  /** Oracle answers for one `install()` call, in the order it asks. */
  datatype InstallWorld = InstallWorld(
    envDirExists: bool, envDirRemovable: bool,   // cleanVirtualEnvDir
    condaProbeExit: int,                         // conda --version
    condaCreateExit: int,                        // conda create ...
    rounds: seq<Round>,                          // whereIsPython iterations
    userVirtualenvExit: int,                     // virtualenv -p python envDir
    download: DownloadWorld,                     // createVirtualenvWithDownload
    pipFirstExit: int, pipSecondExit: int)       // installPIOCore

  datatype Installed = Installed(stage: Stage, trace: seq<Effect>, outcome: Outcome, searchPath: seq<string>)

  /** `install()` does real work: not yet succeeded, and managed mode on. */
  predicate Builds(stage: Stage) {
    stage.status != Succeeded && stage.params.useBuiltinPIOCore
  }

  /** What `install()` issues before choosing a strategy: the clean-up of the
      environment directory, then the conda probe. */
  function Prelude(d: Dirs, w: InstallWorld): seq<Effect> {
    CleanVirtualEnvDir(d, w.envDirExists, w.envDirRemovable).trace + [CONDA_PROBE]
  }

  /** The prelude removes the old environment directory and probes conda,
      nothing else. */
  lemma PreludeIsCleanupAndProbe(d: Dirs, w: InstallWorld)
    ensures forall i :: 0 <= i < |Prelude(d, w)| ==> Prelude(d, w)[i].Remove? || Prelude(d, w)[i] == CONDA_PROBE
  {
  }

  /** The last step of a created environment: install the package, and only
      then mark the stage succeeded. */
  function FinishInstall(stage: Stage, h: Host, d: Dirs, w: InstallWorld, trace: seq<Effect>, searchPath: seq<string>): (r: Installed)
    requires stage.status == Installing
    ensures r.stage.params == stage.params && r.stage.state == stage.state
    ensures r.trace == trace + InstallPioCore(h, d, stage.params.useDevelopmentPIOCore, w.pipFirstExit, w.pipSecondExit).trace
    ensures r.outcome.Done? <==> w.pipFirstExit == 0 || w.pipSecondExit == 0
    ensures r.outcome.Done? ==> r.stage.status == Succeeded
    ensures !r.outcome.Done? ==> r.stage.status == Installing && r.outcome == Raised(PipFailed(w.pipSecondExit))
    ensures r.searchPath == searchPath
  {
    var pip := InstallPioCore(h, d, stage.params.useDevelopmentPIOCore, w.pipFirstExit, w.pipSecondExit);
    if pip.failure.None? then Installed(stage.(status := Succeeded), trace + pip.trace, Done, searchPath)
    else Installed(stage, trace + pip.trace, Raised(pip.failure.value), searchPath)
  }

  lemma UrlsDiffer(h: Host)
    ensures VIRTUALENV_URL != MsiUrl(h)
  {
    assert |MsiUrl(h)| < |VIRTUALENV_URL|;
  }

  /** The `pip` program is neither `virtualenv` nor `conda`. */
  lemma PipIsNotVirtualenv(h: Host, d: Dirs, development: bool)
    ensures PipProgram(h, d, development) != "virtualenv"
    ensures PipProgram(h, d, development) != "conda"
  {
    var p := PipProgram(h, d, development);
    if development {
      assert p[|p| - 1] == 'p';
    }
  }

  /** Effects the conda route never issues: the interpreter search, the
      prompt, any download and any `virtualenv` run. */
  predicate OffCondaRoute(e: Effect) {
    e == LocatePython || e == PromptUser || e.Download? || (e.Run? && e.program == "virtualenv")
  }

  /** The conda route: `conda create` into the environment directory, then
      the package install if that succeeded; a conda failure propagates. */
  function CondaRoute(installing: Stage, h: Host, d: Dirs, w: InstallWorld, searchPath: seq<string>): (r: Installed)
    requires installing.status == Installing
  {
    if w.condaCreateExit != 0 then Installed(installing, [CondaCreate(d)], Raised(CondaFailed(w.condaCreateExit)), searchPath)
    else FinishInstall(installing, h, d, w, [CondaCreate(d)], searchPath)
  }

  /** The conda route starts with `conda create`, issues it only there,
      stops right there when it fails, and issues nothing the other routes
      would. */
  lemma CondaRouteTriesNothingElse(installing: Stage, h: Host, d: Dirs, w: InstallWorld, searchPath: seq<string>)
    requires installing.status == Installing
    ensures var r := CondaRoute(installing, h, d, w, searchPath);
            && |r.trace| >= 1 && r.trace[0] == CondaCreate(d)
            && (w.condaCreateExit != 0 <==> r.outcome == Raised(CondaFailed(w.condaCreateExit)))
            && (w.condaCreateExit != 0 ==> |r.trace| == 1)
            && OnlyAt(r.trace, CondaCreate(d), 0)
            && forall i :: 0 <= i < |r.trace| ==> !OffCondaRoute(r.trace[i])
  {
    var r := CondaRoute(installing, h, d, w, searchPath);
    if w.condaCreateExit == 0 {
      var pip := InstallPioCore(h, d, installing.params.useDevelopmentPIOCore, w.pipFirstExit, w.pipSecondExit).trace;
      PipIsNotVirtualenv(h, d, installing.params.useDevelopmentPIOCore);
      assert r.trace == [CondaCreate(d)] + pip;
      forall i | 1 <= i < |r.trace|
        ensures !OffCondaRoute(r.trace[i]) && r.trace[i] != CondaCreate(d)
      {
        assert r.trace[i] == pip[i - 1];
      }
    }
  }

  /** Environment creation once an interpreter is known: the user's
      virtualenv; only if it fails, the downloaded one; then the package
      install. */
  function VirtualenvRoute(installing: Stage, h: Host, d: Dirs, w: InstallWorld, python: string, searchPath: seq<string>): (r: Installed)
    requires installing.status == Installing
  {
    var user := [UserVirtualenv(d, python)];
    if w.userVirtualenvExit == 0 then FinishInstall(installing, h, d, w, user, searchPath)
    else
      var fallback := CreateWithDownload(h, d, python, w.download);
      if fallback.failure.Some? then Installed(installing, user + fallback.trace, Raised(fallback.failure.value), searchPath)
      else FinishInstall(installing, h, d, w, user + fallback.trace, searchPath)
  }

  /** The user's virtualenv runs first and only there; the virtualenv
      archive is downloaded exactly when that run failed, and then exactly
      once. */
  lemma VirtualenvFallbackOnce(installing: Stage, h: Host, d: Dirs, w: InstallWorld, python: string, searchPath: seq<string>)
    requires installing.status == Installing
    ensures var r := VirtualenvRoute(installing, h, d, w, python, searchPath);
            && |r.trace| >= 2 && r.trace[0] == UserVirtualenv(d, python)
            && (w.userVirtualenvExit != 0 ==> r.trace[1] == ArchiveDownload(h, d))
            && (forall i :: 0 <= i < |r.trace| && r.trace[i].Download? ==> i == 1 && w.userVirtualenvExit != 0)
            && OnlyAt(r.trace, UserVirtualenv(d, python), 0)
  {
    var r := VirtualenvRoute(installing, h, d, w, python, searchPath);
    var user := [UserVirtualenv(d, python)];
    var pip := InstallPioCore(h, d, installing.params.useDevelopmentPIOCore, w.pipFirstExit, w.pipSecondExit).trace;
    if w.userVirtualenvExit == 0 {
      assert r.trace == user + pip;
      forall i | 1 <= i < |r.trace|
        ensures !r.trace[i].Download?
      {
        assert r.trace[i] == pip[i - 1];
      }
    } else {
      var fallback := CreateWithDownload(h, d, python, w.download).trace;
      var created := user + fallback;
      assert r.trace[..|created|] == created;
    }
    UserVirtualenvOnce(installing, h, d, w, python, searchPath);
  }

  lemma UserVirtualenvOnce(installing: Stage, h: Host, d: Dirs, w: InstallWorld, python: string, searchPath: seq<string>)
    requires installing.status == Installing
    ensures OnlyAt(VirtualenvRoute(installing, h, d, w, python, searchPath).trace, UserVirtualenv(d, python), 0)
  {
    var u := UserVirtualenv(d, python);
    var pip := InstallPioCore(h, d, installing.params.useDevelopmentPIOCore, w.pipFirstExit, w.pipSecondExit).trace;
    PipIsNotVirtualenv(h, d, installing.params.useDevelopmentPIOCore);
    assert forall i :: 0 <= i < |pip| ==> pip[i] != u;
    if w.userVirtualenvExit == 0 {
      OnlyAtHead(u, pip);
    } else {
      var fallback := CreateWithDownload(h, d, python, w.download);
      DownloadIsNotUserVirtualenv(h, d, python, w.download);
      if fallback.failure.Some? {
        OnlyAtHead(u, fallback.trace);
      } else {
        var rest := fallback.trace + pip;
        forall i | 0 <= i < |rest|
          ensures rest[i] != u
        {
          if i >= |fallback.trace| {
            assert rest[i] == pip[i - |fallback.trace|];
          }
        }
        OnlyAtHead(u, rest);
        assert [u] + rest == [u] + fallback.trace + pip;
      }
    }
  }

  /** The downloaded virtualenv never issues the user's `virtualenv`
      command. */
  lemma DownloadIsNotUserVirtualenv(h: Host, d: Dirs, python: string, w: DownloadWorld)
    ensures forall i :: 0 <= i < |CreateWithDownload(h, d, python, w).trace| ==>
              CreateWithDownload(h, d, python, w).trace[i] != UserVirtualenv(d, python)
  {
  }

  /** The route without conda: search for an interpreter; if none is
      returned the stage is FAILED, otherwise the virtualenv route follows. */
  function InterpreterRoute(installing: Stage, h: Host, d: Dirs, w: InstallWorld, searchPath: seq<string>): (r: Installed)
    requires installing.status == Installing
  {
    match WhereIsPython(h, d, w.rounds, searchPath)
    case Waiting(t) => Installed(installing, t, AwaitingPrompt, searchPath)
    case Returned(python, t, path, _) =>
      if !TruthyText(python) then Installed(installing.(status := Failed), t, Raised(InterpreterNotFound), path)
      else
        var created := VirtualenvRoute(installing, h, d, w, python.value, path);
        created.(trace := t + created.trace)
  }

  /** No search effect creates an environment. */
  lemma SearchEffectCreatesNothing(h: Host, d: Dirs, e: Effect)
    requires IsSearchEffect(h, e)
    ensures e != CondaCreate(d) && e != ArchiveDownload(h, d) && !(e.Run? && e.program == "virtualenv")
  {
    UrlsDiffer(h);
  }

  /** The interpreter search issues no conda creation, no virtualenv run and
      no download of the virtualenv archive. */
  lemma SearchIssuesNoCreation(h: Host, d: Dirs, rounds: seq<Round>, searchPath: seq<string>)
    ensures var t := WhereIsPython(h, d, rounds, searchPath).trace;
            forall i :: 0 <= i < |t| ==>
              && t[i] != CondaCreate(d) && t[i] != ArchiveDownload(h, d)
              && !(t[i].Run? && t[i].program == "virtualenv")
  {
    var lookup := WhereIsPython(h, d, rounds, searchPath);
    var t := lookup.trace;
    RoundsTraceEffects(h, d, if lookup.Returned? then rounds[..lookup.rounds] else rounds, searchPath);
    forall i | 0 <= i < |t|
      ensures t[i] != CondaCreate(d) && t[i] != ArchiveDownload(h, d) && !(t[i].Run? && t[i].program == "virtualenv")
    {
      SearchEffectCreatesNothing(h, d, t[i]);
    }
  }

  /** `install()`. Returns at once when already succeeded or not in managed
      mode. Otherwise: INSTALLING, clean the environment directory, probe for
      conda and take the conda route or the interpreter route. Only a
      successful package install sets SUCCEEDED; only a missing interpreter
      sets FAILED; every other failure leaves INSTALLING. */
  function Install(stage: Stage, h: Host, d: Dirs, w: InstallWorld, searchPath: seq<string>): (r: Installed)
    ensures !Builds(stage) ==> r.trace == [] && r.outcome == Done && r.stage == stage.(status := Succeeded)
    ensures Builds(stage) ==> |r.trace| >= |Prelude(d, w)| && r.trace[..|Prelude(d, w)|] == Prelude(d, w)
  {
    if stage.status == Succeeded then Installed(stage, [], Done, searchPath)
    else if !stage.params.useBuiltinPIOCore then Installed(stage.(status := Succeeded), [], Done, searchPath)
    else
      var installing := stage.(status := Installing);
      var route := if w.condaProbeExit == 0 then CondaRoute(installing, h, d, w, searchPath)
                   else InterpreterRoute(installing, h, d, w, searchPath);
      route.(trace := Prelude(d, w) + route.trace)
  }

  /** How an environment-creation route may end: SUCCEEDED with success, or
      still INSTALLING with a failure other than a missing interpreter;
      parameters and state untouched. */
  predicate Settled(installing: Stage, r: Installed) {
    && r.stage.params == installing.params && r.stage.state == installing.state
    && ((r.stage.status == Succeeded && r.outcome == Done) ||
        (r.stage.status == Installing && r.outcome.Raised? && r.outcome.failure != InterpreterNotFound))
  }

  lemma CreationRoutesSettle(installing: Stage, h: Host, d: Dirs, w: InstallWorld, python: string, searchPath: seq<string>)
    requires installing.status == Installing
    ensures Settled(installing, CondaRoute(installing, h, d, w, searchPath))
    ensures Settled(installing, VirtualenvRoute(installing, h, d, w, python, searchPath))
  {
    var fallback := CreateWithDownload(h, d, python, w.download);
    assert fallback.failure.Some? ==> fallback.failure.value != InterpreterNotFound;
  }

  /** The status discipline of `install()`: it never leaves PENDING behind,
      reports success exactly when it sets SUCCEEDED, sets FAILED only for a
      missing interpreter, and touches neither parameters nor state. */
  lemma InstallStatusDiscipline(stage: Stage, h: Host, d: Dirs, w: InstallWorld, searchPath: seq<string>)
    ensures var r := Install(stage, h, d, w, searchPath);
            && r.stage.params == stage.params && r.stage.state == stage.state
            && r.stage.status != Pending
            && (r.outcome.Done? <==> r.stage.status == Succeeded)
            && (r.stage.status == Failed <==> r.outcome == Raised(InterpreterNotFound))
  {
    if Builds(stage) {
      var installing := stage.(status := Installing);
      if w.condaProbeExit == 0 {
        CreationRoutesSettle(installing, h, d, w, "", searchPath);
      } else {
        var lookup := WhereIsPython(h, d, w.rounds, searchPath);
        if lookup.Returned? && TruthyText(lookup.python) {
          CreationRoutesSettle(installing, h, d, w, lookup.python.value, lookup.searchPath);
        }
      }
    }
  }

  /** A second `install()` after a successful one issues nothing. */
  lemma InstallIdempotent(stage: Stage, h: Host, d: Dirs, w: InstallWorld, searchPath: seq<string>,
                          w': InstallWorld, searchPath': seq<string>)
    ensures var r := Install(stage, h, d, w, searchPath);
            r.outcome.Done? ==> Install(r.stage, h, d, w', searchPath') == Installed(r.stage, [], Done, searchPath')
  {
    InstallStatusDiscipline(stage, h, d, w, searchPath);
  }

  /** What SUCCEEDED means at the end of a creation route: the last effect
      is a `pip` run, and one of the (at most two) `pip` runs exited with 0. */
  predicate SucceededByPip(installing: Stage, h: Host, d: Dirs, w: InstallWorld, r: Installed) {
    r.stage.status == Succeeded ==>
      && (w.pipFirstExit == 0 || w.pipSecondExit == 0)
      && |r.trace| >= 1 && r.trace[|r.trace| - 1].Run?
      && r.trace[|r.trace| - 1].program == PipProgram(h, d, installing.params.useDevelopmentPIOCore)
  }

  lemma CondaSuccessEndsWithPip(installing: Stage, h: Host, d: Dirs, w: InstallWorld, searchPath: seq<string>)
    requires installing.status == Installing
    ensures SucceededByPip(installing, h, d, w, CondaRoute(installing, h, d, w, searchPath))
  {
    var pip := InstallPioCore(h, d, installing.params.useDevelopmentPIOCore, w.pipFirstExit, w.pipSecondExit).trace;
    var r := CondaRoute(installing, h, d, w, searchPath);
    if r.stage.status == Succeeded {
      assert r.trace[|r.trace| - 1] == pip[|pip| - 1];
    }
  }

  lemma VirtualenvSuccessEndsWithPip(installing: Stage, h: Host, d: Dirs, w: InstallWorld, python: string, searchPath: seq<string>)
    requires installing.status == Installing
    ensures SucceededByPip(installing, h, d, w, VirtualenvRoute(installing, h, d, w, python, searchPath))
  {
    var pip := InstallPioCore(h, d, installing.params.useDevelopmentPIOCore, w.pipFirstExit, w.pipSecondExit).trace;
    var r := VirtualenvRoute(installing, h, d, w, python, searchPath);
    if r.stage.status == Succeeded {
      assert r.trace[|r.trace| - 1] == pip[|pip| - 1];
    }
  }

  lemma CondaInstallSucceededByPip(stage: Stage, h: Host, d: Dirs, w: InstallWorld, searchPath: seq<string>)
    requires Builds(stage) && w.condaProbeExit == 0
    ensures SucceededByPip(stage, h, d, w, Install(stage, h, d, w, searchPath))
  {
    var installing := stage.(status := Installing);
    var r := Install(stage, h, d, w, searchPath);
    var route := CondaRoute(installing, h, d, w, searchPath);
    CondaSuccessEndsWithPip(installing, h, d, w, searchPath);
    if r.stage.status == Succeeded {
      assert r.trace[|r.trace| - 1] == route.trace[|route.trace| - 1];
    }
  }

  lemma InterpreterInstallSucceededByPip(stage: Stage, h: Host, d: Dirs, w: InstallWorld, searchPath: seq<string>)
    requires Builds(stage) && w.condaProbeExit != 0
    ensures SucceededByPip(stage, h, d, w, Install(stage, h, d, w, searchPath))
  {
    var installing := stage.(status := Installing);
    var r := Install(stage, h, d, w, searchPath);
    var lookup := WhereIsPython(h, d, w.rounds, searchPath);
    if lookup.Returned? && TruthyText(lookup.python) {
      var route := VirtualenvRoute(installing, h, d, w, lookup.python.value, lookup.searchPath);
      VirtualenvSuccessEndsWithPip(installing, h, d, w, lookup.python.value, lookup.searchPath);
      assert r.trace == Prelude(d, w) + (lookup.trace + route.trace);
      if r.stage.status == Succeeded {
        assert r.trace[|r.trace| - 1] == route.trace[|route.trace| - 1];
      }
    }
  }

  /** `install()` sets SUCCEEDED through the creation chain only right after
      a successful package install. */
  lemma SucceededOnlyAfterPip(stage: Stage, h: Host, d: Dirs, w: InstallWorld, searchPath: seq<string>)
    requires Builds(stage)
    ensures SucceededByPip(stage, h, d, w, Install(stage, h, d, w, searchPath))
  {
    if w.condaProbeExit == 0 {
      CondaInstallSucceededByPip(stage, h, d, w, searchPath);
    } else {
      InterpreterInstallSucceededByPip(stage, h, d, w, searchPath);
    }
  }

  /** With conda present, `install()` creates the environment with conda
      right after the probe and tries nothing else; a conda failure ends the
      call with that failure. */
  lemma InstallWithConda(stage: Stage, h: Host, d: Dirs, w: InstallWorld, searchPath: seq<string>)
    requires Builds(stage) && w.condaProbeExit == 0
    ensures var r := Install(stage, h, d, w, searchPath);
            && |r.trace| > |Prelude(d, w)| && r.trace[|Prelude(d, w)|] == CondaCreate(d)
            && OnlyAt(r.trace, CondaCreate(d), |Prelude(d, w)|)
            && (forall i :: 0 <= i < |r.trace| ==> !OffCondaRoute(r.trace[i]))
            && (w.condaCreateExit != 0 ==>
                  r.outcome == Raised(CondaFailed(w.condaCreateExit)) && |r.trace| == |Prelude(d, w)| + 1)
  {
    var installing := stage.(status := Installing);
    var route := CondaRoute(installing, h, d, w, searchPath);
    CondaRouteTriesNothingElse(installing, h, d, w, searchPath);
    var prelude := Prelude(d, w);
    PreludeIsCleanupAndProbe(d, w);
    var r := Install(stage, h, d, w, searchPath);
    assert r.trace == prelude + route.trace;
    assert r.outcome == route.outcome;
    forall i | 0 <= i < |prelude|
      ensures prelude[i] != CondaCreate(d)
    {
      assert prelude[i].Remove? || prelude[i] == CONDA_PROBE;
    }
    OnlyAtShift(prelude, route.trace, CondaCreate(d), 0);
    forall i | 0 <= i < |r.trace|
      ensures !OffCondaRoute(r.trace[i])
    {
      if i < |prelude| {
        assert r.trace[i] == prelude[i];
      } else {
        assert r.trace[i] == route.trace[i - |prelude|];
      }
    }
  }

  /** Without conda and without an interpreter, `install()` fails with the
      stage FAILED, having created nothing. */
  lemma InstallWithoutInterpreter(stage: Stage, h: Host, d: Dirs, w: InstallWorld, searchPath: seq<string>)
    requires Builds(stage) && w.condaProbeExit != 0
    requires WhereIsPython(h, d, w.rounds, searchPath).Returned? && !TruthyText(WhereIsPython(h, d, w.rounds, searchPath).python)
    ensures var r := Install(stage, h, d, w, searchPath);
            && r.stage.status == Failed && r.outcome == Raised(InterpreterNotFound)
            && forall i :: 0 <= i < |r.trace| ==>
                 && r.trace[i] != CondaCreate(d) && r.trace[i] != ArchiveDownload(h, d)
                 && !(r.trace[i].Run? && r.trace[i].program == "virtualenv")
  {
    var lookup := WhereIsPython(h, d, w.rounds, searchPath);
    var prelude := Prelude(d, w);
    var r := Install(stage, h, d, w, searchPath);
    SearchIssuesNoCreation(h, d, w.rounds, searchPath);
    assert r.trace == prelude + lookup.trace;
    forall i | 0 <= i < |r.trace|
      ensures r.trace[i] != CondaCreate(d) && r.trace[i] != ArchiveDownload(h, d)
      ensures !(r.trace[i].Run? && r.trace[i].program == "virtualenv")
    {
      if i >= |prelude| {
        assert r.trace[i] == lookup.trace[i - |prelude|];
      }
    }
  }

  /** The interpreter route in terms of where the archive download may
      occur: right after the user's virtualenv, which follows the search. */
  lemma InterpreterRouteFallbackOnce(installing: Stage, h: Host, d: Dirs, w: InstallWorld, searchPath: seq<string>)
    requires installing.status == Installing
    requires WhereIsPython(h, d, w.rounds, searchPath).Returned? && TruthyText(WhereIsPython(h, d, w.rounds, searchPath).python)
    ensures var r := InterpreterRoute(installing, h, d, w, searchPath);
            var lookup := WhereIsPython(h, d, w.rounds, searchPath);
            var k := |lookup.trace|;
            && |r.trace| > k + 1 && r.trace[k] == UserVirtualenv(d, lookup.python.value)
            && (w.userVirtualenvExit != 0 ==> r.trace[k + 1] == ArchiveDownload(h, d))
            && OnlyAt(r.trace, ArchiveDownload(h, d), if w.userVirtualenvExit != 0 then k + 1 else -1)
  {
    var lookup := WhereIsPython(h, d, w.rounds, searchPath);
    var route := VirtualenvRoute(installing, h, d, w, lookup.python.value, lookup.searchPath);
    var r := InterpreterRoute(installing, h, d, w, searchPath);
    assert r.trace == lookup.trace + route.trace;
    VirtualenvFallbackOnce(installing, h, d, w, lookup.python.value, lookup.searchPath);
    SearchIssuesNoCreation(h, d, w.rounds, searchPath);
    var k := if w.userVirtualenvExit != 0 then 1 else -1 - |lookup.trace|;
    assert OnlyAt(route.trace, ArchiveDownload(h, d), k);
    OnlyAtShift(lookup.trace, route.trace, ArchiveDownload(h, d), k);
  }

  /** Without conda but with an interpreter, the user's virtualenv is tried
      right after the search, and the virtualenv archive is downloaded right
      after that exactly when it failed, and nowhere else. */
  lemma InstallFallbackOnce(stage: Stage, h: Host, d: Dirs, w: InstallWorld, searchPath: seq<string>)
    requires Builds(stage) && w.condaProbeExit != 0
    requires WhereIsPython(h, d, w.rounds, searchPath).Returned? && TruthyText(WhereIsPython(h, d, w.rounds, searchPath).python)
    ensures var r := Install(stage, h, d, w, searchPath);
            var lookup := WhereIsPython(h, d, w.rounds, searchPath);
            var k := |Prelude(d, w)| + |lookup.trace|;
            && |r.trace| > k + 1 && r.trace[k] == UserVirtualenv(d, lookup.python.value)
            && (w.userVirtualenvExit != 0 ==> r.trace[k + 1] == ArchiveDownload(h, d))
            && OnlyAt(r.trace, ArchiveDownload(h, d), if w.userVirtualenvExit != 0 then k + 1 else -1)
  {
    var installing := stage.(status := Installing);
    var route := InterpreterRoute(installing, h, d, w, searchPath);
    var prelude := Prelude(d, w);
    InterpreterRouteFallbackOnce(installing, h, d, w, searchPath);
    PreludeIsCleanupAndProbe(d, w);
    var k := |WhereIsPython(h, d, w.rounds, searchPath).trace|;
    var j := if w.userVirtualenvExit != 0 then k + 1 else -1 - |prelude|;
    OnlyAtShift(prelude, route.trace, ArchiveDownload(h, d), j);
  }

  /** A worked run on Linux: no environment yet, no conda, `python` found
      by the first search, the user's `virtualenv` fails, the downloaded
      one works, and the first `pip` run succeeds. */
  const EXAMPLE_HOST := Host(false, true)
  const EXAMPLE_DIRS := Dirs("/home/u", "/home/u/.cache", "/home/u/penv", "/home/u/penv/bin")
  const EXAMPLE_ROUNDS := [Round(Some("python"), WindowsWorld(None, false, 1, false, 1, false), PromptReply(Abort, None))]
  const EXAMPLE_DOWNLOAD := DownloadWorld(Some("/tmp/venv.tar.gz"), Some("/tmp/venv"), [Join(EXAMPLE_HOST, "/tmp/venv", SCRIPT_NAME)], 0)
  const EXAMPLE_WORLD := InstallWorld(false, true, 1, 1, EXAMPLE_ROUNDS, 1, EXAMPLE_DOWNLOAD, 0, 1)
  const EXAMPLE_PIP := Run("pip", ["install", NO_CACHE, "-U", "platformio"])

  /** The environment the example creates after its search. */
  function ExampleCreation(): seq<Effect> {
    [UserVirtualenv(EXAMPLE_DIRS, "python"), ArchiveDownload(EXAMPLE_HOST, EXAMPLE_DIRS), Extract("/tmp/venv.tar.gz"),
     Run("python", [Join(EXAMPLE_HOST, "/tmp/venv", SCRIPT_NAME), EXAMPLE_DIRS.envDir]), Remove("/tmp/venv"), EXAMPLE_PIP]
  }

  lemma ExampleSearch()
    ensures WhereIsPython(EXAMPLE_HOST, EXAMPLE_DIRS, EXAMPLE_ROUNDS, []) == Returned(Some("python"), [LocatePython], [], 1)
  {
  }

  lemma ExampleCreated(installing: Stage)
    requires installing.status == Installing && !installing.params.useDevelopmentPIOCore
    ensures VirtualenvRoute(installing, EXAMPLE_HOST, EXAMPLE_DIRS, EXAMPLE_WORLD, "python", []) ==
            Installed(installing.(status := Succeeded), ExampleCreation(), Done, [])
  {
    var h, d := EXAMPLE_HOST, EXAMPLE_DIRS;
    BasenameOfJoin(h, "/tmp/venv", SCRIPT_NAME);
    assert FindScript(h, EXAMPLE_DOWNLOAD.tree) == Some(0);
    assert InstallPioCore(h, d, false, 0, 1) == Attempt([EXAMPLE_PIP], None);
  }

  lemma FallbackScenario()
    ensures var stage := Stage(Pending, Params(true, false, "3.5.0"), Null);
            Install(stage, EXAMPLE_HOST, EXAMPLE_DIRS, EXAMPLE_WORLD, []) ==
              Installed(stage.(status := Succeeded), [CONDA_PROBE, LocatePython] + ExampleCreation(), Done, [])
  {
    var installing := Stage(Installing, Params(true, false, "3.5.0"), Null);
    var stage := Stage(Pending, Params(true, false, "3.5.0"), Null);
    ExampleRoute(installing);
    assert Prelude(EXAMPLE_DIRS, EXAMPLE_WORLD) == [CONDA_PROBE];
    var c := ExampleCreation();
    InstallWithoutConda(stage, EXAMPLE_HOST, EXAMPLE_DIRS, EXAMPLE_WORLD,
                        Installed(installing.(status := Succeeded), [LocatePython] + c, Done, []));
    TwoHeads(CONDA_PROBE, LocatePython, c);
  }

  lemma TwoHeads(a: Effect, b: Effect, c: seq<Effect>)
    ensures [a] + ([b] + c) == [a, b] + c
  {
  }

  /** Without conda, a building `install()` is the prelude followed by the
      interpreter route. */
  lemma InstallWithoutConda(stage: Stage, h: Host, d: Dirs, w: InstallWorld, route: Installed)
    requires Builds(stage) && w.condaProbeExit != 0
    requires InterpreterRoute(stage.(status := Installing), h, d, w, []) == route
    ensures Install(stage, h, d, w, []) == route.(trace := Prelude(d, w) + route.trace)
  {
  }

  lemma ExampleRoute(installing: Stage)
    requires installing.status == Installing && !installing.params.useDevelopmentPIOCore
    ensures InterpreterRoute(installing, EXAMPLE_HOST, EXAMPLE_DIRS, EXAMPLE_WORLD, []) ==
            Installed(installing.(status := Succeeded), [LocatePython] + ExampleCreation(), Done, [])
  {
    ExampleSearch();
    ExampleCreated(installing);
  }

  /** Oracle answers for one `check()` call. */
  datatype CheckWorld = CheckWorld(
    envBinDirExists: bool,       // fs.isDirectorySync(envBinDir)
    ideEnv: Option<string>,      // process.env.PLATFORMIO_IDE
    now: int,                    // new Date().getTime()
    coreVersion: Option<string>) // core.getVersion(); None when it rejected

  datatype Checked = Checked(stage: Stage, trace: seq<Effect>, outcome: Outcome)

  /** `check()` gets past the environment test: managed mode is off, or the
      environment's bin directory exists. */
  predicate ReachesVersion(stage: Stage, w: CheckWorld) {
    !(stage.params.useBuiltinPIOCore && !w.envBinDirExists)
  }

  /** What `semver.lt(PEPverToSemver(version), minVersion)` answers, with the
      version normalisation and the semantic-version order left abstract:
      `None` when `semver.lt` throws on a version it cannot read. */
  function Compare(version: string, minVersion: string,
                   toSemver: string -> string, lessThan: (string, string) -> Option<bool>): Option<bool> {
    lessThan(toSemver(version), minVersion)
  }

  /** The toolchain answered a version and it compares below the minimum. */
  predicate Outdated(stage: Stage, w: CheckWorld,
                     toSemver: string -> string, lessThan: (string, string) -> Option<bool>) {
    w.coreVersion.Some? && Compare(w.coreVersion.value, stage.params.pioCoreMinVersion, toSemver, lessThan) == Some(true)
  }

  /** The toolchain answered a version and it compares at or above the minimum. */
  predicate Compatible(stage: Stage, w: CheckWorld,
                       toSemver: string -> string, lessThan: (string, string) -> Option<bool>) {
    w.coreVersion.Some? && Compare(w.coreVersion.value, stage.params.pioCoreMinVersion, toSemver, lessThan) == Some(false)
  }

  /** `check()`. In managed mode a missing environment fails before anything
      else; otherwise the auto-upgrade runs and its state is saved. Then the
      version is queried: a rejected query or an unreadable version fails;
      below the minimum the caller's `setUseBuiltinPIOCore(true)` is called
      and the call fails; otherwise SUCCEEDED. The status changes only on
      success, and the parameters are never written by the stage itself. */
  function Check(stage: Stage, w: CheckWorld, toSemver: string -> string,
                 lessThan: (string, string) -> Option<bool>): (r: Checked)
    ensures r.stage.params == stage.params
    ensures !ReachesVersion(stage, w) ==> r == Checked(stage, [], Raised(EnvironmentMissing))
    ensures ReachesVersion(stage, w) ==>
              var upgrade := if stage.params.useBuiltinPIOCore then CoreState.AutoUpgrade(stage.state, w.ideEnv, w.now)
                             else CoreState.Upgraded(stage.state, []);
              && r.trace == upgrade.trace + [QueryVersion] +
                            (if Outdated(stage, w, toSemver, lessThan) then [SetUseBuiltinPIOCore(true)] else [])
              && r.stage.state == upgrade.state
    ensures ReachesVersion(stage, w) && w.coreVersion.None? ==> r.outcome == Raised(VersionUnavailable)
    ensures ReachesVersion(stage, w) && w.coreVersion.Some? &&
            Compare(w.coreVersion.value, stage.params.pioCoreMinVersion, toSemver, lessThan).None? ==>
              r.outcome == Raised(InvalidVersion(w.coreVersion.value))
    ensures ReachesVersion(stage, w) && Outdated(stage, w, toSemver, lessThan) ==>
              && r.outcome == Raised(IncompatibleVersion(w.coreVersion.value))
              && r.trace[|r.trace| - 1] == SetUseBuiltinPIOCore(true)
    ensures (SetUseBuiltinPIOCore(true) in r.trace) <==> ReachesVersion(stage, w) && Outdated(stage, w, toSemver, lessThan)
    ensures r.outcome.Done? <==> ReachesVersion(stage, w) && Compatible(stage, w, toSemver, lessThan)
    ensures r.outcome.Done? ==> r.stage.status == Succeeded
    ensures !r.outcome.Done? ==> r.outcome.Raised? && r.stage.status == stage.status
  {
    if !ReachesVersion(stage, w) then Checked(stage, [], Raised(EnvironmentMissing))
    else
      var upgraded := if stage.params.useBuiltinPIOCore then CoreState.AutoUpgrade(stage.state, w.ideEnv, w.now)
                      else CoreState.Upgraded(stage.state, []);
      CoreState.UpgradeIssuesPioOnly(stage.state, w.ideEnv, w.now);
      var saved := stage.(state := upgraded.state);
      var queried := upgraded.trace + [QueryVersion];
      assert SetUseBuiltinPIOCore(true) !in queried;
      match w.coreVersion
      case None => Checked(saved, queried, Raised(VersionUnavailable))
      case Some(version) =>
        match Compare(version, stage.params.pioCoreMinVersion, toSemver, lessThan)
        case None => Checked(saved, queried, Raised(InvalidVersion(version)))
        case Some(below) =>
          if below then
            Checked(saved, queried + [SetUseBuiltinPIOCore(true)], Raised(IncompatibleVersion(version)))
          else Checked(saved.(status := Succeeded), queried, Done)
  }

  /** The setter `setUseBuiltinPIOCore(value)` under the hypothesis that it
      writes the very parameters the stage reads. */
  function SetterApplied(p: Params, value: bool): Params {
    p.(useBuiltinPIOCore := value)
  }

  /** An incompatible version ends `check()` with the call
      `setUseBuiltinPIOCore(true)`. If that setter writes the stage's own
      parameters, the next `install()` of a stage that has not succeeded
      builds the managed environment: it probes for conda after the
      clean-up. */
  lemma IncompatibleVersionForcesInstall(stage: Stage, cw: CheckWorld, toSemver: string -> string,
                                         lessThan: (string, string) -> Option<bool>,
                                         h: Host, d: Dirs, w: InstallWorld, searchPath: seq<string>)
    requires stage.status != Succeeded
    ensures var c := Check(stage, cw, toSemver, lessThan);
            c.outcome.Raised? && c.outcome.failure.IncompatibleVersion? ==>
              && c.trace[|c.trace| - 1] == SetUseBuiltinPIOCore(true)
              && var next := c.stage.(params := SetterApplied(c.stage.params, true));
                 && Builds(next)
                 && var r := Install(next, h, d, w, searchPath);
                    |r.trace| >= |Prelude(d, w)| && r.trace[|Prelude(d, w)| - 1] == CONDA_PROBE
  {
    var c := Check(stage, cw, toSemver, lessThan);
    if c.outcome.Raised? && c.outcome.failure.IncompatibleVersion? {
      var next := c.stage.(params := SetterApplied(c.stage.params, true));
      var r := Install(next, h, d, w, searchPath);
      assert r.trace[..|Prelude(d, w)|][|Prelude(d, w)| - 1] == CONDA_PROBE;
    }
  }
}

=== FILE: core_state.dfy ===
/** The provisioning stage's persisted record `{pioCoreChecked,
    lastIDEVersion}`: its defaulting rule and the scheduled upgrade of the
    toolchain (`initState` and `autoUpgradePIOCore`). */
module CoreState {
  import opened Wrappers
  import opened Js
  import opened Effects

  /** Three days, in milliseconds. */
  const UPGRADE_TIMEOUT_MS: int := 86400 * 3 * 1000

  const CHECKED_KEY: string := "pioCoreChecked"
  const VERSION_KEY: string := "lastIDEVersion"

  const UPGRADE_ARGS: seq<string> := ["upgrade"]
  const UPDATE_ARGS: seq<string> := ["update", "--core-packages"]

  /** The record in typed form: when the toolchain was last checked (epoch
      milliseconds) and the host IDE version seen then (`None` is `null`). */
  datatype Record = Record(checkedMs: int, lastIdeVersion: Option<string>)

  function Encode(rec: Record): (v: Value)
    ensures v.Obj? && v.fields.Keys == {CHECKED_KEY, VERSION_KEY}
  {
    Obj(map[CHECKED_KEY := Num(rec.checkedMs),
            VERSION_KEY := match rec.lastIdeVersion case None => Null case Some(s) => Str(s)])
  }

  /** The record a missing or malformed state starts from. */
  const DEFAULT: Record := Record(0, None)

  /** The stored state can be used as it is: it is truthy and owns both keys. */
  predicate WellShaped(stored: Value) {
    Truthy(stored) && HasOwn(stored, CHECKED_KEY) && HasOwn(stored, VERSION_KEY)
  }

  lemma KeysAreNotIndices()
    ensures ParseIndex(CHECKED_KEY).None? && ParseIndex(VERSION_KEY).None?
  {
    assert !IsDigit(CHECKED_KEY[0]);
    assert !IsDigit(VERSION_KEY[0]);
  }

  /** `initState()`: the stored state when it owns both keys, else the
      default record. The result is always an object holding both keys. */
  function InitState(stored: Value): (r: Value)
    ensures r.Obj? && CHECKED_KEY in r.fields && VERSION_KEY in r.fields
    ensures WellShaped(stored) ==> r == stored
    ensures !WellShaped(stored) ==> r == Encode(DEFAULT)
  {
    KeysAreNotIndices();
    if WellShaped(stored) then stored else Encode(DEFAULT)
  }

  /** A well-shaped state is an object: strings and arrays own neither key. */
  lemma WellShapedIsObject(stored: Value)
    ensures WellShaped(stored) ==> stored.Obj?
  {
    KeysAreNotIndices();
  }

  /** Defaulting is stable: a state that went through `initState` goes
      through it again unchanged, and so does every encoded record. */
  lemma InitStateIdempotent(stored: Value, rec: Record)
    ensures InitState(InitState(stored)) == InitState(stored)
    ensures InitState(Encode(rec)) == Encode(rec)
  {
  }

  /** The host IDE version changed since the last check: the environment
      variable is set, the stored version is truthy, and they differ. */
  predicate IdeVersionChanged(state: Value, ideEnv: Option<string>) {
    TruthyText(ideEnv) && Truthy(Get(state, VERSION_KEY)) && Get(state, VERSION_KEY) != Str(ideEnv.value)
  }

  /** More than three days passed since the stored check time; a time that
      `parseInt` reads as NaN never compares greater. */
  predicate CheckExpired(state: Value, now: int) {
    match ParseInt(Get(state, CHECKED_KEY))
    case None => false
    case Some(checked) => now - UPGRADE_TIMEOUT_MS > checked
  }

  /** The auto-upgrade trigger, evaluated on the defaulted state. */
  predicate UpgradeDue(state: Value, ideEnv: Option<string>, now: int) {
    IdeVersionChanged(state, ideEnv) || CheckExpired(state, now)
  }

  datatype Upgraded = Upgraded(state: Value, trace: seq<Effect>)

  /** `autoUpgradePIOCore()`: when the trigger holds, stamp the check time and
      run `upgrade` then `update --core-packages` (their exit codes are
      ignored); in every case store the current IDE version and save. */
  function AutoUpgrade(stored: Value, ideEnv: Option<string>, now: int): (r: Upgraded)
    ensures r.state.Obj? && r.state.fields.Keys == InitState(stored).fields.Keys
    ensures r.state.fields[VERSION_KEY] == OfText(ideEnv)
    ensures UpgradeDue(InitState(stored), ideEnv, now) ==>
              r.state.fields[CHECKED_KEY] == Num(now) && r.trace == [Pio(UPGRADE_ARGS), Pio(UPDATE_ARGS)]
    ensures !UpgradeDue(InitState(stored), ideEnv, now) ==>
              r.state.fields[CHECKED_KEY] == InitState(stored).fields[CHECKED_KEY] && r.trace == []
    ensures forall k :: k in r.state.fields && k != CHECKED_KEY && k != VERSION_KEY ==>
              r.state.fields[k] == InitState(stored).fields[k]
  {
    var s := InitState(stored);
    var due := UpgradeDue(s, ideEnv, now);
    var stamped := if due then s.fields[CHECKED_KEY := Num(now)] else s.fields;
    Upgraded(Obj(stamped[VERSION_KEY := OfText(ideEnv)]),
             if due then [Pio(UPGRADE_ARGS), Pio(UPDATE_ARGS)] else [])
  }

  /** The routine issues only toolchain commands. */
  lemma UpgradeIssuesPioOnly(stored: Value, ideEnv: Option<string>, now: int)
    ensures forall i :: 0 <= i < |AutoUpgrade(stored, ideEnv, now).trace| ==> AutoUpgrade(stored, ideEnv, now).trace[i].Pio?
  {
  }

  /** On a typed record the trigger reads: the IDE variable is set, the stored
      version is non-empty and differs from it, or strictly more than three
      days passed. A `null` stored version never triggers the first branch. */
  lemma UpgradeDueOnRecord(rec: Record, ideEnv: Option<string>, now: int)
    ensures UpgradeDue(Encode(rec), ideEnv, now) <==>
              (TruthyText(ideEnv) && TruthyText(rec.lastIdeVersion) && rec.lastIdeVersion.value != ideEnv.value)
              || now - UPGRADE_TIMEOUT_MS > rec.checkedMs
    ensures rec.lastIdeVersion.None? ==> !IdeVersionChanged(Encode(rec), ideEnv)
  {
  }

  /** The time window is strict: exactly three days after the check does not
      trigger, one millisecond later does. */
  lemma UpgradeWindowBoundary(rec: Record, ideEnv: Option<string>)
    requires !IdeVersionChanged(Encode(rec), ideEnv)
    ensures !UpgradeDue(Encode(rec), ideEnv, rec.checkedMs + UPGRADE_TIMEOUT_MS)
    ensures UpgradeDue(Encode(rec), ideEnv, rec.checkedMs + UPGRADE_TIMEOUT_MS + 1)
  {
  }

  /** With a clock that does not go backwards, the stored check time never
      decreases. */
  lemma CheckedNeverDecreases(rec: Record, ideEnv: Option<string>, now: int)
    requires now >= rec.checkedMs
    ensures AutoUpgrade(Encode(rec), ideEnv, now).state.fields[CHECKED_KEY].Num?
    ensures AutoUpgrade(Encode(rec), ideEnv, now).state.fields[CHECKED_KEY].n >= rec.checkedMs
  {
  }

  /** A check time stored as decimal text, possibly followed by text that is
      not part of a number, is read by `parseInt`: the window is measured from
      the number the text spells. */
  lemma CheckExpiredOfText(state: Value, n: nat, rest: string, now: int)
    requires state.Obj? && CHECKED_KEY in state.fields
    requires state.fields[CHECKED_KEY] == Str(Decimal(n) + rest) && Terminates(rest)
    ensures CheckExpired(state, now) <==> now - UPGRADE_TIMEOUT_MS > n
  {
    var stamp := state.fields[CHECKED_KEY];
    assert Get(state, CHECKED_KEY) == stamp;
    ParseIntOfDecimal(n, rest);
    assert ParseInt(stamp) == Some(n);
  }

  /** After an upgrade ran, a second routine with the same IDE version within
      the next three days issues nothing, as long as the state object the
      first routine left is the one the second reads. */
  lemma NoSecondUpgradeWithinWindow(stored: Value, ideEnv: Option<string>, now: int, later: int)
    requires UpgradeDue(InitState(stored), ideEnv, now)
    requires now <= later <= now + UPGRADE_TIMEOUT_MS
    ensures AutoUpgrade(AutoUpgrade(stored, ideEnv, now).state, ideEnv, later).trace == []
  {
    var first := AutoUpgrade(stored, ideEnv, now).state;
    KeysAreNotIndices();
    assert WellShaped(first);
    assert InitState(first) == first;
    assert Get(first, VERSION_KEY) == OfText(ideEnv);
    assert !IdeVersionChanged(first, ideEnv);
    assert Get(first, CHECKED_KEY) == Num(now);
  }

  /** What a JSON store gives back for a state whose members are scalars:
      `JSON.stringify` omits the members whose value is `undefined`. */
  function Persisted(state: Value): (r: Value)
    ensures state.Obj? <==> r.Obj?
    ensures state.Obj? ==> forall k :: k in r.fields <==> k in state.fields && state.fields[k] != Undefined
    ensures state.Obj? ==> forall k :: k in r.fields ==> r.fields[k] == state.fields[k]
    ensures !state.Obj? ==> r == state
  {
    match state
    case Obj(m) => Obj(map k | k in m && m[k] != Undefined :: m[k])
    case _ => state
  }

  /** With the IDE variable set, the promise survives a save and reload: the
      stored version is text and is kept, so the reloaded state is used as it
      is and nothing runs again within three days. */
  lemma NoSecondUpgradeAfterReload(stored: Value, ideEnv: Option<string>, now: int, later: int)
    requires ideEnv.Some?
    requires UpgradeDue(InitState(stored), ideEnv, now)
    requires now <= later <= now + UPGRADE_TIMEOUT_MS
    ensures AutoUpgrade(Persisted(AutoUpgrade(stored, ideEnv, now).state), ideEnv, later).trace == []
  {
    var first := AutoUpgrade(stored, ideEnv, now).state;
    var saved := Persisted(first);
    KeysAreNotIndices();
    assert saved.fields[VERSION_KEY] == Str(ideEnv.value);
    assert saved.fields[CHECKED_KEY] == Num(now);
    assert WellShaped(saved);
    assert InitState(saved) == saved;
    assert !IdeVersionChanged(saved, ideEnv);
  }

  /** With the IDE variable unset, the routine stores `lastIDEVersion:
      undefined`, which a JSON store drops; the reloaded state then fails the
      shape test and restarts from the default record, so once the clock is
      past three days after the epoch every reload upgrades again, whether or
      not the previous routine ran. */
  lemma UnsetIdeVersionResetsOnReload(stored: Value, now: int, later: int)
    ensures InitState(Persisted(AutoUpgrade(stored, None, now).state)) == Encode(DEFAULT)
    ensures later > UPGRADE_TIMEOUT_MS ==>
              AutoUpgrade(Persisted(AutoUpgrade(stored, None, now).state), None, later).trace == [Pio(UPGRADE_ARGS), Pio(UPDATE_ARGS)]
  {
    var saved := Persisted(AutoUpgrade(stored, None, now).state);
    assert !HasOwn(saved, VERSION_KEY);
    assert !WellShaped(saved);
    KeysAreNotIndices();
    assert CheckExpired(Encode(DEFAULT), later) <==> later > UPGRADE_TIMEOUT_MS;
  }
}

=== FILE: effects.dfy ===
/** What the core would do to the outside world, in the order it does it.
    Every operation of the model returns the list of these it issues; the
    answers come back through oracle inputs. */
module Effects {

  datatype Effect =
    /** `runCommand(program, args, ...)`: spawn an external process. */
    | Run(program: string, args: seq<string>)
    /** `core.runPIOCommand(args, ...)`: run the toolchain's own CLI. */
    | Pio(args: seq<string>)
    /** `download(url, dest)` from the installer helpers. */
    | Download(url: string, dest: string)
    /** `extractTarGz(archive, tmpDir)`. */
    | Extract(archive: string)
    /** `fs.removeSync(path)`. */
    | Remove(path: string)
    /** `getPythonExecutable(useBuiltinPIOCore)`: one interpreter search. */
    | LocatePython
    /** `pythonPrompt.prompt()`: ask the user what to do. */
    | PromptUser
    /** `core.getVersion()`. */
    | QueryVersion
    /** `tcpPortUsed.check(port, host)` while scanning for a free port. */
    | ProbePort(port: int)
    /** `tcpPortUsed.check(HTTP_PORT, host)` from `isServerStarted`. */
    | ProbeServer(port: int)
    /** `tcpPortUsed.waitUntilUsed(port, interval, timeout)`. */
    | WaitUntilUsed(port: int, intervalMs: nat, timeoutMs: nat)
    /** `listenIDECommands(callback)`: open the command channel to the
        server on `port`. */
    | OpenChannel(port: int)
    /** `params.setUseBuiltinPIOCore(value)`: the caller-supplied setter of
        managed mode. */
    | SetUseBuiltinPIOCore(value: bool)

  /** Some effect of the trace runs `program`. */
  predicate RunsProgram(t: seq<Effect>, program: string) {
    exists i :: 0 <= i < |t| && t[i].Run? && t[i].program == program
  }

  /** Effect `e` occurs in `t` at index `k` at most: nowhere else. */
  predicate OnlyAt(t: seq<Effect>, e: Effect, k: int) {
    forall i :: 0 <= i < |t| && t[i] == e ==> i == k
  }

  /** Prepending effects that are not `e` shifts where `e` may occur. */
  lemma OnlyAtShift(a: seq<Effect>, b: seq<Effect>, e: Effect, k: int)
    requires forall i :: 0 <= i < |a| ==> a[i] != e
    requires OnlyAt(b, e, k)
    ensures OnlyAt(a + b, e, |a| + k)
  {
    forall i | 0 <= i < |a + b| && (a + b)[i] == e
      ensures i == |a| + k
    {
      if i >= |a| {
        assert (a + b)[i] == b[i - |a|];
      }
    }
  }

  /** An effect that heads a trace and does not occur in the rest occurs
      only at the head. */
  lemma OnlyAtHead(e: Effect, rest: seq<Effect>)
    requires forall i :: 0 <= i < |rest| ==> rest[i] != e
    ensures OnlyAt([e] + rest, e, 0)
  {
    forall i | 1 <= i < |[e] + rest|
      ensures ([e] + rest)[i] != e
    {
      assert ([e] + rest)[i] == rest[i - 1];
    }
  }
}

=== FILE: failures.dfy ===
/** The errors the provisioning stage raises, one per `throw`/`reject` site. */
module Failures {

  datatype Failure =
    /** `check()`: the managed environment's bin directory is missing. */
    | EnvironmentMissing
    /** `check()`: `core.getVersion()` rejected. */
    | VersionUnavailable
    /** `check()`: `semver.lt` threw on a version it cannot read. */
    | InvalidVersion(found: string)
    /** `check()`: the toolchain reports a version below the minimum. */
    | IncompatibleVersion(found: string)
    /** `install()`: no interpreter was found or given. */
    | InterpreterNotFound
    /** `createVirtualenvWithConda`: `conda create` exited non-zero. */
    | CondaFailed(exitCode: int)
    /** `createVirtualenvWithDownload`: the archive download threw. */
    | DownloadFailed
    /** `createVirtualenvWithDownload`: the archive extraction threw. */
    | ExtractFailed
    /** `createVirtualenvWithDownload`: no `virtualenv.py` in the archive. */
    | ScriptNotFound
    /** `createVirtualenvWithDownload`: the script exited non-zero. */
    | VirtualenvFailed(exitCode: int)
    /** `installPIOCore`: the retry without `--no-cache-dir` exited non-zero. */
    | PipFailed(exitCode: int)
}

=== FILE: home.dfy ===
/** The PIO Home supervisor: the free-port scan, the memoised port, the
    start-or-reuse decision of `ensureServerStarted`, and `showAtStartup`.
    Port probes, the readiness wait and the state file are oracle answers. */
module Home {
  import opened Wrappers
  import opened Js
  import opened Effects

  const HOST: string := "127.0.0.1"

  /** The scanned ports are FIRST_PORT .. LAST_PORT - 1. */
  const FIRST_PORT: nat := 8010
  const LAST_PORT: nat := 9000

  const WAIT_INTERVAL_MS: nat := 500
  const WAIT_TIMEOUT_MS: nat := 15000

  /** What `tcpPortUsed.check` answers: the port is in use, it is free, or
      the check rejected. */
  datatype Probe = InUse | Free | ProbeError

  /** `findFreePort` treats a rejected check as "not in use". */
  predicate Available(p: Probe) {
    p != InUse
  }

  // ---------------------------------------------------------------------
  // findFreePort

  /** Reference definition: the first available port from `port` on, or 0
      when every port up to the end of the range is in use. */
  function FirstFreeFrom(probe: int -> Probe, port: nat): nat
    decreases LAST_PORT - port
  {
    if port >= LAST_PORT then 0
    else if Available(probe(port)) then port
    else FirstFreeFrom(probe, port + 1)
  }

  /** The reference result is the least available port of the rest of the
      range, or 0 when there is none. */
  lemma {:induction false} FirstFreeFromIsLeast(probe: int -> Probe, port: nat)
    requires FIRST_PORT <= port <= LAST_PORT
    ensures var r := FirstFreeFrom(probe, port);
            && (r == 0 <==> forall q :: port <= q < LAST_PORT ==> !Available(probe(q)))
            && (r != 0 ==> port <= r < LAST_PORT && Available(probe(r)))
            && (forall q :: port <= q < LAST_PORT && q < r ==> !Available(probe(q)))
    decreases LAST_PORT - port
  {
    if port < LAST_PORT && !Available(probe(port)) {
      FirstFreeFromIsLeast(probe, port + 1);
    }
  }

  /** With 8010 .. 8014 taken and 8015 free the scan answers 8015; with the
      whole range taken it answers 0. */
  lemma ScanExamples(probe: int -> Probe, full: int -> Probe)
    requires forall q :: probe(q) == (if q < 8015 then InUse else Free)
    requires forall q :: full(q) == InUse
    ensures FirstFreeFrom(probe, FIRST_PORT) == 8015
    ensures FirstFreeFrom(full, FIRST_PORT) == 0
  {
    assert FirstFreeFrom(probe, 8015) == 8015;
    assert FirstFreeFrom(probe, 8012) == 8015;
    FirstFreeFromIsLeast(full, FIRST_PORT);
  }

  /** The ports a scan probes, in order: from FIRST_PORT up to the one it
      returns, or the whole range when it returns 0. */
  function ScannedPorts(result: nat): seq<int>
    requires result == 0 || FIRST_PORT <= result < LAST_PORT
  {
    var last := if result == 0 then LAST_PORT - 1 else result;
    seq(last - FIRST_PORT + 1, i => FIRST_PORT + i)
  }

  /** `findFreePort()`: probe 8010, 8011, ... and return the first port not
      in use, or 0 after 8999. Also returns the probed ports in order. */
  method FindFreePort(probe: int -> Probe) returns (port: nat, probed: seq<int>)
    ensures port == FirstFreeFrom(probe, FIRST_PORT)
    ensures port == 0 || (FIRST_PORT <= port < LAST_PORT && Available(probe(port)))
    ensures forall q :: FIRST_PORT <= q < LAST_PORT && (port == 0 || q < port) ==> !Available(probe(q))
    ensures probed == ScannedPorts(port)
  {
    FirstFreeFromIsLeast(probe, FIRST_PORT);
    var candidate: nat := FIRST_PORT;
    probed := [];
    while candidate < LAST_PORT
      invariant FIRST_PORT <= candidate <= LAST_PORT
      invariant FirstFreeFrom(probe, candidate) == FirstFreeFrom(probe, FIRST_PORT)
      invariant forall q :: FIRST_PORT <= q < candidate ==> !Available(probe(q))
      invariant probed == seq(candidate - FIRST_PORT, i => FIRST_PORT + i)
      decreases LAST_PORT - candidate
    {
      probed := probed + [candidate];
      if Available(probe(candidate)) {
        port := candidate;
        return;
      }
      candidate := candidate + 1;
    }
    port := 0;
  }

  // ---------------------------------------------------------------------
  // isServerStarted / ensureServerStarted

  /** `isServerStarted()`: the server is up when its port is in use; a
      rejected check counts as not started, so the call never fails. */
  function IsServerStarted(running: Probe): (r: bool)
    ensures r <==> running == InUse
    ensures running == ProbeError ==> !r
  {
    match running
    case InUse => true
    case Free => false
    case ProbeError => false
  }

  /** The module state: `HTTP_PORT`, 0 until a scan assigns it. */
  datatype Supervisor = Supervisor(port: nat)

  /** Oracle answers for one `ensureServerStarted` call: the port probes of
      a scan, the `isServerStarted` probe, and whether the server came up
      within the wait. */
  datatype StartWorld = StartWorld(probe: int -> Probe, running: Probe, ready: bool)

  datatype Started =
    | Listening(host: string, port: nat)
    | CouldNotStart
    /** `options` was not given: reading `options.onIDECommand` throws a
        `TypeError` once the server is up. */
    | OptionsMissing

  datatype Ensured = Ensured(supervisor: Supervisor, trace: seq<Effect>, outcome: Started)

  /** The command that starts the server. */
  function HomeArgs(port: nat): seq<string> {
    ["home", "--port", Decimal(port), "--no-open"]
  }

  /** The scan only when the port is still 0. */
  function Scan(s: Supervisor, probe: int -> Probe): (r: Supervisor)
    ensures s.port != 0 ==> r == s
    ensures s.port == 0 ==> r.port == FirstFreeFrom(probe, FIRST_PORT)
  {
    if s.port == 0 then Supervisor(FirstFreeFrom(probe, FIRST_PORT)) else s
  }

  function ScanTrace(s: Supervisor, probe: int -> Probe): seq<Effect> {
    if s.port != 0 then []
    else
      FirstFreeFromIsLeast(probe, FIRST_PORT);
      var ports := ScannedPorts(FirstFreeFrom(probe, FIRST_PORT));
      seq(|ports|, i requires 0 <= i < |ports| => ProbePort(ports[i]))
  }

  /** `ensureServerStarted(options)`: assign the port by a scan if it is
      still 0; if the server already runs, answer its address; otherwise
      launch `home --port <port> --no-open`, wait for the port (500 ms
      interval, 15 s timeout; a timeout rejects), open the command channel
      if a callback was given, and answer the address. `options` is `None`
      when the argument is missing and otherwise says whether it carries a
      truthy `onIDECommand`. */
  function EnsureServerStarted(s: Supervisor, w: StartWorld, options: Option<bool>): (r: Ensured)
    ensures r.supervisor == Scan(s, w.probe)
  {
    var s' := Scan(s, w.probe);
    var checked := ScanTrace(s, w.probe) + [ProbeServer(s'.port)];
    if IsServerStarted(w.running) then Ensured(s', checked, Listening(HOST, s'.port))
    else
      var launched := checked + [Pio(HomeArgs(s'.port)), WaitUntilUsed(s'.port, WAIT_INTERVAL_MS, WAIT_TIMEOUT_MS)];
      if !w.ready then Ensured(s', launched, CouldNotStart)
      else match options
        case None => Ensured(s', launched, OptionsMissing)
        case Some(hasCallback) =>
          if hasCallback then Ensured(s', launched + [OpenChannel(s'.port)], Listening(HOST, s'.port))
          else Ensured(s', launched, Listening(HOST, s'.port))
  }

  /** A running server is reused: after the probes nothing is issued (no
      launch, no wait and no command channel, even when a callback is
      given); the answer is its address. */
  lemma RunningServerIsReused(s: Supervisor, w: StartWorld, options: Option<bool>)
    requires w.running == InUse
    ensures var r := EnsureServerStarted(s, w, options);
            && r.outcome == Listening(HOST, r.supervisor.port)
            && forall i :: 0 <= i < |r.trace| ==> r.trace[i].ProbePort? || r.trace[i] == ProbeServer(r.supervisor.port)
  {
    var r := EnsureServerStarted(s, w, options);
    var scan := ScanTrace(s, w.probe);
    ScanTraceIsProbes(s, w.probe);
    forall i | 0 <= i < |r.trace|
      ensures r.trace[i].ProbePort? || r.trace[i] == ProbeServer(r.supervisor.port)
    {
      if i < |scan| { assert r.trace[i] == scan[i]; }
    }
  }

  /** The scan issues port probes only. */
  lemma ScanTraceIsProbes(s: Supervisor, probe: int -> Probe)
    ensures forall i :: 0 <= i < |ScanTrace(s, probe)| ==> ScanTrace(s, probe)[i].ProbePort?
  {
  }

  /** Otherwise the server is launched right after the probes and followed
      by the wait; a failed wait is an error; a missing `options` argument
      is an error only after a successful wait; the channel to the assigned
      port opens only after a successful wait and only with a callback, as
      the last effect. */
  lemma StoppedServerIsLaunched(s: Supervisor, w: StartWorld, options: Option<bool>)
    requires w.running != InUse
    ensures var r := EnsureServerStarted(s, w, options);
            var port := r.supervisor.port;
            var n := |ScanTrace(s, w.probe)|;
            && r.trace[..n] == ScanTrace(s, w.probe)
            && r.trace[n..] == [ProbeServer(port), Pio(HomeArgs(port)), WaitUntilUsed(port, 500, 15000)] +
                               (if w.ready && options == Some(true) then [OpenChannel(port)] else [])
            && (r.outcome == CouldNotStart <==> !w.ready)
            && (r.outcome == OptionsMissing <==> w.ready && options.None?)
            && (r.outcome.Listening? <==> w.ready && options.Some?)
            && (r.outcome.Listening? ==> r.outcome == Listening(HOST, port))
  {
  }

  /** ... and it is launched exactly once, and the channel is opened at
      most once. */
  lemma StoppedServerIsLaunchedOnce(s: Supervisor, w: StartWorld, options: Option<bool>)
    requires w.running != InUse
    ensures var r := EnsureServerStarted(s, w, options);
            var n := |ScanTrace(s, w.probe)|;
            && r.trace[n + 1] == Pio(HomeArgs(r.supervisor.port))
            && OnlyAt(r.trace, Pio(HomeArgs(r.supervisor.port)), n + 1)
            && OnlyAt(r.trace, OpenChannel(r.supervisor.port), n + 3)
  {
    var r := EnsureServerStarted(s, w, options);
    var scan := ScanTrace(s, w.probe);
    StoppedServerIsLaunched(s, w, options);
    ScanTraceIsProbes(s, w.probe);
    var port := r.supervisor.port;
    var tail := r.trace[|scan|..];
    assert r.trace == scan + tail;
    LaunchTailOnce(port, tail[3..]);
    assert tail == tail[..3] + tail[3..];
    OnlyAtShift(scan, tail, Pio(HomeArgs(port)), 1);
    OnlyAtShift(scan, tail, OpenChannel(port), 3);
  }

  /** The effects after the scan name the launch and the channel once each. */
  lemma LaunchTailOnce(port: nat, extra: seq<Effect>)
    requires extra == [] || extra == [OpenChannel(port)]
    ensures var t := [ProbeServer(port), Pio(HomeArgs(port)), WaitUntilUsed(port, 500, 15000)] + extra;
            OnlyAt(t, Pio(HomeArgs(port)), 1) && OnlyAt(t, OpenChannel(port), 3)
  {
  }

  /** The port is memoised: once assigned it is reused without a scan. */
  lemma PortIsMemoised(s: Supervisor, w: StartWorld, options: Option<bool>)
    requires s.port != 0
    ensures var r := EnsureServerStarted(s, w, options);
            && r.supervisor == s
            && forall i :: 0 <= i < |r.trace| ==> !r.trace[i].ProbePort?
  {
  }

  /** The port a scan assigns is 0 or lies in the scanned range. */
  lemma AssignedPortInRange(s: Supervisor, w: StartWorld, options: Option<bool>)
    requires s.port == 0
    ensures var p := EnsureServerStarted(s, w, options).supervisor.port;
            p == 0 || (FIRST_PORT <= p < LAST_PORT && Available(w.probe(p)))
  {
    FirstFreeFromIsLeast(w.probe, FIRST_PORT);
  }

  /** Several `ensureServerStarted` calls in a row. */
  function Session(s: Supervisor, worlds: seq<StartWorld>, options: Option<bool>): (r: Ensured)
    decreases |worlds|
    ensures |worlds| == 0 ==> r == Ensured(s, [], Listening(HOST, s.port))
  {
    if |worlds| == 0 then Ensured(s, [], Listening(HOST, s.port))
    else
      var first := EnsureServerStarted(s, worlds[0], options);
      var rest := Session(first.supervisor, worlds[1..], options);
      Ensured(rest.supervisor, first.trace + rest.trace, if |worlds| == 1 then first.outcome else rest.outcome)
  }

  /** Across a session the port is assigned at most once: after a non-zero
      port nothing is rescanned and the port never changes. */
  lemma {:induction false} SessionKeepsPort(s: Supervisor, worlds: seq<StartWorld>, options: Option<bool>)
    requires s.port != 0
    ensures var r := Session(s, worlds, options);
            && r.supervisor == s
            && forall i :: 0 <= i < |r.trace| ==> !r.trace[i].ProbePort?
  {
    if |worlds| > 0 {
      PortIsMemoised(s, worlds[0], options);
      SessionKeepsPort(s, worlds[1..], options);
      var first := EnsureServerStarted(s, worlds[0], options);
      var rest := Session(s, worlds[1..], options);
      var t := first.trace + rest.trace;
      forall i | 0 <= i < |t|
        ensures !t[i].ProbePort?
      {
        if i >= |first.trace| {
          assert t[i] == rest.trace[i - |first.trace|];
        }
      }
    }
  }

  // ---------------------------------------------------------------------
  // showAtStartup

  /** The state file `homestate.json` in the home directory: missing, not
      parseable as JSON, or parsed to a value. */
  datatype StateFile = Missing | Unparsable | Parsed(state: Value)

  /** `showAtStartup(caller)`: true unless the parsed state has a truthy
      `storage`, a truthy `storage.showOnStartup` and an own `caller`
      property there, in which case that property's value. */
  function ShowAtStartup(caller: string, file: StateFile): (r: Value)
    ensures !file.Parsed? ==> r == Bool(true)
    ensures r == Bool(true) ||
            (file.Parsed? && r == Get(Get(Get(file.state, "storage"), "showOnStartup"), caller))
    ensures file.Parsed? ==>
              var storage := Get(file.state, "storage");
              var flags := Get(storage, "showOnStartup");
              (Truthy(file.state) && Truthy(storage) && Truthy(flags) && HasOwn(flags, caller) ==> r == Get(flags, caller))
              && (!Truthy(file.state) || !Truthy(storage) || !Truthy(flags) || !HasOwn(flags, caller) ==> r == Bool(true))
  {
    match file
    case Missing => Bool(true)
    case Unparsable => Bool(true)
    case Parsed(state) =>
      if !Truthy(state) then Bool(true)
      else
        var storage := Get(state, "storage");
        if !Truthy(storage) then Bool(true)
        else
          var flags := Get(storage, "showOnStartup");
          if !Truthy(flags) || !HasOwn(flags, caller) then Bool(true)
          else Get(flags, caller)
  }

  /** The typed view of the state the IDE stores: a flag per caller. */
  datatype HomeState = HomeState(showOnStartup: map<string, bool>)

  function EncodeHomeState(hs: HomeState): Value {
    Obj(map["storage" := Obj(map["showOnStartup" := Obj(map k | k in hs.showOnStartup :: Bool(hs.showOnStartup[k]))])])
  }

  /** Reading back a stored state: the caller's flag when there is one,
      true otherwise. */
  lemma ShowAtStartupOfStored(caller: string, hs: HomeState)
    ensures ShowAtStartup(caller, Parsed(EncodeHomeState(hs))) ==
            Bool(if caller in hs.showOnStartup then hs.showOnStartup[caller] else true)
  {
  }

  /** A falsy state, `storage` or `showOnStartup`, or a missing caller key,
      means true. */
  lemma ShowAtStartupDefaults(caller: string, state: Value)
    ensures var flags := Get(Get(state, "storage"), "showOnStartup");
            (!Truthy(state) || !Truthy(Get(state, "storage")) || !Truthy(flags) || !HasOwn(flags, caller)) ==>
              ShowAtStartup(caller, Parsed(state)) == Bool(true)
  {
  }
}

=== FILE: interpreter.dfy ===
/** Finding a Python interpreter for the managed environment:
    `whereIsPython`, with the Windows fallback `installPythonForWindows` and
    `installPythonFromWindowsMSI`. Downloads, the MSI installer, the
    filesystem and the user prompt are oracle answers. */
module Interpreter {
  import opened Wrappers
  import opened Js
  import opened Platform
  import opened Effects

  const PYTHON_VERSION: string := "2.7.13"

  function MsiName(h: Host): string {
    "python-" + PYTHON_VERSION + (if h.x64 then ".amd64" else "") + ".msi"
  }

  function MsiUrl(h: Host): string {
    "https://www.python.org/ftp/python/" + PYTHON_VERSION + "/" + MsiName(h)
  }

  function TargetDir(h: Host, d: Dirs): string {
    Join(h, d.homeDir, "python27")
  }

  function PythonPath(h: Host, d: Dirs): string {
    Join(h, TargetDir(h, d), "python.exe")
  }

  function MsiLog(h: Host, d: Dirs): string {
    Join(h, d.cacheDir, "python27msi.log")
  }

  /** The `msiexec.exe` argument list: `/a` for an administrative install,
      `/i` otherwise, quiet, logging, into the target directory. */
  function MsiArgs(installer: string, targetDir: string, logFile: string, administrative: bool): seq<string> {
    [if administrative then "/a" else "/i", installer, "/qn", "/li", logFile, "TARGETDIR=" + targetDir]
  }

  datatype MsiRun = MsiRun(trace: seq<Effect>, ok: bool)

  /** `installPythonFromWindowsMSI(installer, targetDir, administrative)`:
      one `msiexec.exe` run; it succeeds only if it exits 0 and `python.exe`
      then exists in the target directory. */
  function InstallFromMsi(h: Host, d: Dirs, installer: string, administrative: bool,
                          exitCode: int, pythonAfter: bool): (r: MsiRun)
    ensures |r.trace| == 1 && r.trace[0].Run? && r.trace[0].program == "msiexec.exe" && |r.trace[0].args| == 6
    ensures r.trace[0].args[0] == (if administrative then "/a" else "/i") && r.trace[0].args[1] == installer
    ensures "TARGETDIR=" + TargetDir(h, d) in r.trace[0].args
    ensures r.ok <==> exitCode == 0 && pythonAfter
  {
    MsiRun([Run("msiexec.exe", MsiArgs(installer, TargetDir(h, d), MsiLog(h, d), administrative))],
           exitCode == 0 && pythonAfter)
  }

  /** Oracle answers for one `installPythonForWindows` call. */
  datatype WindowsWorld = WindowsWorld(
    installer: Option<string>,   // what `download` returned; None when it threw
    pythonPresent: bool,         // `python.exe` already in the target directory
    firstExit: int, pythonAfterFirst: bool,     // the `/i` run
    secondExit: int, pythonAfterSecond: bool)   // the `/a` run

  datatype WindowsInstall = WindowsInstall(trace: seq<Effect>, python: Option<string>, searchPath: seq<string>)

  /** The Windows installation succeeds when the installer downloads and
      `python.exe` is already there, or the normal or else the administrative
      MSI run produces it. */
  predicate WindowsInstallSucceeds(w: WindowsWorld) {
    w.installer.Some? &&
    (w.pythonPresent || (w.firstExit == 0 && w.pythonAfterFirst) || (w.secondExit == 0 && w.pythonAfterSecond))
  }

  /** The effects of the Windows installation: the MSI download and the
      `msiexec.exe` and `pip` runs. */
  predicate IsInstallEffect(h: Host, e: Effect) {
    || (e.Download? && e.url == MsiUrl(h))
    || (e.Run? && (e.program == "msiexec.exe" || e.program == "pip"))
  }

  /** The effects an interpreter search can issue: searches, prompts and the
      effects of the Windows installation. */
  predicate IsSearchEffect(h: Host, e: Effect) {
    e == LocatePython || e == PromptUser || IsInstallEffect(h, e)
  }

  /** The tail of a successful Windows installation: extend the search path
      and install `virtualenv`. */
  function WindowsReady(h: Host, d: Dirs, trace: seq<Effect>, searchPath: seq<string>): WindowsInstall {
    var target := TargetDir(h, d);
    WindowsInstall(trace + [Run("pip", ["install", "virtualenv"])],
                   Some(PythonPath(h, d)),
                   [target, Join(h, target, "Scripts")] + searchPath)
  }

  /** `installPythonForWindows()`: download the MSI; unless `python.exe` is
      already present run it normally and, if that fails, once more as an
      administrative install; then prepend the target directory and its
      `Scripts` to the search path, install `virtualenv` with `pip` (its
      exit code is ignored) and return the interpreter path. */
  function InstallPythonForWindows(h: Host, d: Dirs, w: WindowsWorld, searchPath: seq<string>): (r: WindowsInstall)
    ensures forall i :: 0 <= i < |r.trace| ==> IsInstallEffect(h, r.trace[i])
    ensures r.python.Some? <==> WindowsInstallSucceeds(w)
    ensures r.python.Some? ==>
              && r.python.value == PythonPath(h, d)
              && r.searchPath == [TargetDir(h, d), Join(h, TargetDir(h, d), "Scripts")] + searchPath
    ensures r.python.None? ==> r.searchPath == searchPath
  {
    var download := [Download(MsiUrl(h), Join(h, d.cacheDir, MsiName(h)))];
    match w.installer
    case None => WindowsInstall(download, None, searchPath)
    case Some(installer) =>
      if w.pythonPresent then WindowsReady(h, d, download, searchPath)
      else
        var first := InstallFromMsi(h, d, installer, false, w.firstExit, w.pythonAfterFirst);
        if first.ok then WindowsReady(h, d, download + first.trace, searchPath)
        else
          var second := InstallFromMsi(h, d, installer, true, w.secondExit, w.pythonAfterSecond);
          var tried := download + first.trace + second.trace;
          if second.ok then WindowsReady(h, d, tried, searchPath)
          else WindowsInstall(tried, None, searchPath)
  }

  /** The order of the Windows installation: the MSI download first; no
      `msiexec.exe` run when `python.exe` is already present; otherwise the
      normal run, and a second run exactly when the first did not produce
      the interpreter, which is the one administrative run and the last
      `msiexec.exe` run; `pip install virtualenv` last, and only on
      success. */
  lemma WindowsInstallOrder(h: Host, d: Dirs, w: WindowsWorld, searchPath: seq<string>)
    ensures var r := InstallPythonForWindows(h, d, w, searchPath);
            && |r.trace| >= 1 && r.trace[0] == Download(MsiUrl(h), Join(h, d.cacheDir, MsiName(h)))
            && (w.installer.None? ==> |r.trace| == 1)
            && (r.python.Some? ==> r.trace[|r.trace| - 1] == Run("pip", ["install", "virtualenv"]))
            && (r.python.None? ==> !RunsProgram(r.trace, "pip"))
            && (w.installer.Some? && w.pythonPresent ==> !RunsProgram(r.trace, "msiexec.exe"))
            && (w.installer.Some? && !w.pythonPresent ==>
                  && |r.trace| >= 2
                  && r.trace[1] == InstallFromMsi(h, d, w.installer.value, false, w.firstExit, w.pythonAfterFirst).trace[0]
                  && (RunsProgram(r.trace[2..], "msiexec.exe") <==> !(w.firstExit == 0 && w.pythonAfterFirst)))
            && (w.installer.Some? && !w.pythonPresent && !(w.firstExit == 0 && w.pythonAfterFirst) ==>
                  && r.trace[2] == InstallFromMsi(h, d, w.installer.value, true, w.secondExit, w.pythonAfterSecond).trace[0]
                  && !RunsProgram(r.trace[3..], "msiexec.exe"))
  {
    var r := InstallPythonForWindows(h, d, w, searchPath);
    var download := [Download(MsiUrl(h), Join(h, d.cacheDir, MsiName(h)))];
    if w.installer.Some? && !w.pythonPresent {
      var first := InstallFromMsi(h, d, w.installer.value, false, w.firstExit, w.pythonAfterFirst);
      if !first.ok {
        var second := InstallFromMsi(h, d, w.installer.value, true, w.secondExit, w.pythonAfterSecond);
        assert r.trace[2..][0] == second.trace[0];
      } else {
        assert !RunsProgram(r.trace[2..], "msiexec.exe") by {
          assert r.trace[2..] == [Run("pip", ["install", "virtualenv"])];
        }
      }
    }
  }

  /** The statuses `pythonPrompt.prompt()` can answer with. */
  datatype PromptStatus = TryAgain | CustomExe | Abort | OtherStatus(code: int)

  datatype PromptReply = PromptReply(status: PromptStatus, pythonExecutable: Option<string>)

  /** Oracle answers for one iteration of the `whereIsPython` loop: what
      `getPythonExecutable` found, how a Windows installation would go, and
      what the user answers. Only the answers the iteration asks for matter. */
  datatype Round = Round(located: Option<string>, windows: WindowsWorld, reply: PromptReply)

  /** One iteration either decides what `whereIsPython` returns or loops. */
  datatype RoundResult = RoundResult(decided: bool, python: Option<string>, trace: seq<Effect>, searchPath: seq<string>)

  /** The user is asked in an iteration that neither finds an interpreter nor
      installs one on Windows. */
  predicate AsksUser(h: Host, d: Dirs, rd: Round, searchPath: seq<string>) {
    !TruthyText(rd.located) && !(h.windows && WindowsInstallSucceeds(rd.windows))
  }

  function RunRound(h: Host, d: Dirs, rd: Round, searchPath: seq<string>): (r: RoundResult)
    ensures |r.trace| >= 1 && r.trace[0] == LocatePython
    ensures forall i :: 0 <= i < |r.trace| ==> IsSearchEffect(h, r.trace[i])
    ensures !r.decided ==> r.searchPath == searchPath
  {
    if TruthyText(rd.located) then RoundResult(true, rd.located, [LocatePython], searchPath)
    else
      var win := if h.windows then InstallPythonForWindows(h, d, rd.windows, searchPath)
                 else WindowsInstall([], None, searchPath);
      if win.python.Some? then RoundResult(true, win.python, [LocatePython] + win.trace, win.searchPath)
      else
        var trace := [LocatePython] + win.trace + [PromptUser];
        match rd.reply.status
        case CustomExe => RoundResult(true, rd.reply.pythonExecutable, trace, searchPath)
        case Abort => RoundResult(true, None, trace, searchPath)
        case _ => RoundResult(false, None, trace, searchPath)
  }

  /** What one iteration decides: an interpreter found on the search path is
      returned; else on Windows a successful installation returns its
      `python.exe`, while elsewhere nothing is installed; else the user is
      prompted, and CUSTOMEXE returns the
      user's path, ABORT returns nothing, and every other status loops. The
      prompt appears exactly when the user is asked, as the last effect. */
  lemma RoundDecisions(h: Host, d: Dirs, rd: Round, searchPath: seq<string>)
    ensures var r := RunRound(h, d, rd, searchPath);
            && (TruthyText(rd.located) ==> r == RoundResult(true, rd.located, [LocatePython], searchPath))
            && (!TruthyText(rd.located) && h.windows && WindowsInstallSucceeds(rd.windows) ==>
                  r.decided && r.python == Some(PythonPath(h, d)))
            && (!h.windows && !TruthyText(rd.located) ==> r.trace == [LocatePython, PromptUser])
            && ((PromptUser in r.trace) <==> AsksUser(h, d, rd, searchPath))
            && (AsksUser(h, d, rd, searchPath) ==>
                  && r.trace[|r.trace| - 1] == PromptUser
                  && (r.decided <==> rd.reply.status == CustomExe || rd.reply.status == Abort)
                  && (rd.reply.status == CustomExe ==> r.python == rd.reply.pythonExecutable)
                  && (rd.reply.status == Abort ==> r.python == None))
  {
    if !TruthyText(rd.located) && h.windows {
      var win := InstallPythonForWindows(h, d, rd.windows, searchPath);
      assert PromptUser !in win.trace by {
        assert forall i :: 0 <= i < |win.trace| ==> IsInstallEffect(h, win.trace[i]);
      }
    }
  }

  /** What `whereIsPython` comes to with the given answers: it returned after
      `rounds` iterations, or it is still looping when the answers run out. */
  datatype Lookup =
    | Returned(python: Option<string>, trace: seq<Effect>, searchPath: seq<string>, rounds: nat)
    | Waiting(trace: seq<Effect>)

  /** The effects of the first `n` iterations (none of which decided). */
  function RoundsTrace(h: Host, d: Dirs, rounds: seq<Round>, searchPath: seq<string>): seq<Effect> {
    if |rounds| == 0 then [] else RunRound(h, d, rounds[0], searchPath).trace + RoundsTrace(h, d, rounds[1..], searchPath)
  }

  /** Everything the interpreter search issues is a search effect. */
  lemma {:induction false} RoundsTraceEffects(h: Host, d: Dirs, rounds: seq<Round>, searchPath: seq<string>)
    ensures forall i :: 0 <= i < |RoundsTrace(h, d, rounds, searchPath)| ==> IsSearchEffect(h, RoundsTrace(h, d, rounds, searchPath)[i])
  {
    if |rounds| > 0 {
      RoundsTraceEffects(h, d, rounds[1..], searchPath);
      var head := RunRound(h, d, rounds[0], searchPath).trace;
      var tail := RoundsTrace(h, d, rounds[1..], searchPath);
      forall i | 0 <= i < |head + tail|
        ensures IsSearchEffect(h, (head + tail)[i])
      {
        if i >= |head| {
          assert (head + tail)[i] == tail[i - |head|];
        }
      }
    }
  }

  /** `whereIsPython()`: iterate until an iteration decides; the result is
      that iteration's answer, and the effects are those of every iteration
      run, in order. */
  function WhereIsPython(h: Host, d: Dirs, rounds: seq<Round>, searchPath: seq<string>): (r: Lookup)
    decreases |rounds|
    ensures r.Returned? ==>
              && 1 <= r.rounds <= |rounds|
              && (forall j :: 0 <= j < r.rounds - 1 ==> !RunRound(h, d, rounds[j], searchPath).decided)
              && RunRound(h, d, rounds[r.rounds - 1], searchPath).decided
              && r.python == RunRound(h, d, rounds[r.rounds - 1], searchPath).python
              && r.searchPath == RunRound(h, d, rounds[r.rounds - 1], searchPath).searchPath
              && r.trace == RoundsTrace(h, d, rounds[..r.rounds], searchPath)
    ensures r.Waiting? ==>
              && (forall j :: 0 <= j < |rounds| ==> !RunRound(h, d, rounds[j], searchPath).decided)
              && r.trace == RoundsTrace(h, d, rounds, searchPath)
  {
    if |rounds| == 0 then Waiting([])
    else
      var first := RunRound(h, d, rounds[0], searchPath);
      if first.decided then
        assert rounds[..1] == [rounds[0]];
        assert rounds[..1][1..] == [];
        Returned(first.python, first.trace, first.searchPath, 1)
      else
        match WhereIsPython(h, d, rounds[1..], searchPath)
        case Waiting(t) => Waiting(first.trace + t)
        case Returned(p, t, sp, n) =>
          assert rounds[..n + 1][1..] == rounds[1..][..n];
          Returned(p, first.trace + t, sp, n + 1)
  }

  /** An interpreter found by the first search is returned at once, with no
      prompt and no Windows installation. */
  lemma FirstFoundIsReturned(h: Host, d: Dirs, rounds: seq<Round>, searchPath: seq<string>)
    requires |rounds| > 0 && TruthyText(rounds[0].located)
    ensures WhereIsPython(h, d, rounds, searchPath) == Returned(rounds[0].located, [LocatePython], searchPath, 1)
  {
  }
}

=== FILE: js.dfy ===
/** The slice of JavaScript value semantics the provisioning stage and the
    home-server supervisor rely on: truthiness, own-property tests, property
    reads, canonical decimal strings and `parseInt`. Numbers are integers. */
module Js {
  import opened Wrappers

  /** A JavaScript value as produced by `JSON.parse`, plus `undefined`. */
  datatype Value =
    | Undefined
    | Null
    | Bool(b: bool)
    | Num(n: int)
    | Str(s: string)
    | Arr(items: seq<Value>)
    | Obj(fields: map<string, Value>)

  /** ToBoolean: the test behind `!x`, `x && y` and `if (x)`. */
  predicate Truthy(v: Value) {
    match v
    case Undefined => false
    case Null => false
    case Bool(b) => b
    case Num(n) => n != 0
    case Str(s) => s != ""
    case Arr(_) => true
    case Obj(_) => true
  }

  /** Reading a property of these throws a TypeError. */
  predicate Nullish(v: Value) {
    v.Undefined? || v.Null?
  }

  /** Truthiness of an optional string such as an environment variable or an
      interpreter path (`None` is `undefined`/`null`). */
  predicate TruthyText(s: Option<string>) {
    s.Some? && s.value != ""
  }

  /** The JavaScript value of an optional string. */
  function OfText(s: Option<string>): (v: Value)
    ensures Truthy(v) <==> TruthyText(s)
  {
    match s
    case None => Undefined
    case Some(t) => Str(t)
  }

  // ---------------------------------------------------------------------
  // Decimal digits

  predicate IsDigit(c: char) {
    '0' <= c <= '9'
  }

  predicate AllDigits(s: string) {
    forall i :: 0 <= i < |s| ==> IsDigit(s[i])
  }

  function DigitChar(d: nat): char
    requires d < 10
  {
    ['0', '1', '2', '3', '4', '5', '6', '7', '8', '9'][d]
  }

  function DigitValue(c: char): nat
    requires IsDigit(c)
  {
    (c as int - '0' as int) as nat
  }

  /** The value of a string of decimal digits, most significant first. */
  function DigitsValue(s: string): nat
    requires AllDigits(s)
  {
    if |s| == 0 then 0 else DigitsValue(s[..|s| - 1]) * 10 + DigitValue(s[|s| - 1])
  }

  /** `String(n)` for a non-negative integer: digits without leading zeros. */
  function Decimal(n: nat): (r: string)
    ensures |r| >= 1 && AllDigits(r)
    ensures r[0] == '0' <==> n == 0
    ensures n == 0 ==> |r| == 1
  {
    if n < 10 then [DigitChar(n)] else Decimal(n / 10) + [DigitChar(n % 10)]
  }

  /** A canonical array/string index key ("0", "1", ..., no leading zeros)
      and its value; any other key is not an index. */
  function ParseIndex(k: string): (r: Option<nat>)
    ensures r.Some? ==> AllDigits(k) && r.value == DigitsValue(k)
  {
    if |k| > 0 && AllDigits(k) && (k[0] != '0' || |k| == 1) then Some(DigitsValue(k)) else None
  }

  lemma DigitRoundTrip(d: nat)
    requires d < 10
    ensures IsDigit(DigitChar(d)) && DigitValue(DigitChar(d)) == d
  {
  }

  /** Reading back a canonical decimal string yields the number. */
  lemma {:induction false} DecimalValue(n: nat)
    ensures DigitsValue(Decimal(n)) == n
  {
    var r := Decimal(n);
    if n < 10 {
      DigitRoundTrip(n);
      assert r[..0] == [];
    } else {
      DecimalValue(n / 10);
      DigitRoundTrip(n % 10);
      assert r[..|r| - 1] == Decimal(n / 10);
    }
  }

  /** A digit string that does not start with '0' has a positive value. */
  lemma {:induction false} LeadingNonZeroPositive(s: string)
    requires |s| > 0 && AllDigits(s) && s[0] != '0'
    ensures DigitsValue(s) > 0
  {
    if |s| > 1 {
      LeadingNonZeroPositive(s[..|s| - 1]);
    }
  }

  /** A canonical index key is the decimal string of its value. */
  lemma {:induction false} CanonicalIsDecimal(k: string)
    requires |k| > 0 && AllDigits(k) && (k[0] != '0' || |k| == 1)
    ensures Decimal(DigitsValue(k)) == k
  {
    var v := DigitsValue(k);
    var last := k[|k| - 1];
    var d := DigitValue(last);
    if |k| == 1 {
      assert k == [last];
      assert DigitsValue(k[..0]) == 0;
      assert DigitChar(d) == last;
    } else {
      var front := k[..|k| - 1];
      assert front[0] == k[0];
      CanonicalIsDecimal(front);
      LeadingNonZeroPositive(front);
      assert v == DigitsValue(front) * 10 + d;
      assert v / 10 == DigitsValue(front) && v % 10 == d;
      assert DigitChar(d) == last;
      assert k == front + [last];
    }
  }

  /** Index keys and decimal strings are the same thing, in both directions. */
  lemma ParseIndexIsDecimal(k: string, n: nat)
    ensures ParseIndex(k) == Some(n) <==> k == Decimal(n)
  {
    if k == Decimal(n) {
      DecimalValue(n);
    }
    if ParseIndex(k) == Some(n) {
      CanonicalIsDecimal(k);
    }
  }

  // ---------------------------------------------------------------------
  // Own properties and property reads

  /** `v.hasOwnProperty(k)` for a non-nullish value. Strings and arrays own
      "length" and their canonical indices; other primitives own nothing. */
  predicate HasOwn(v: Value, k: string) {
    match v
    case Obj(m) => k in m
    case Str(s) => k == "length" || (ParseIndex(k).Some? && ParseIndex(k).value < |s|)
    case Arr(a) => k == "length" || (ParseIndex(k).Some? && ParseIndex(k).value < |a|)
    case _ => false
  }

  /** `v[k]` for a non-nullish value and a key that no built-in prototype
      defines ("storage", "method", ...): the own property, else `undefined`. */
  function Get(v: Value, k: string): (r: Value)
    ensures !HasOwn(v, k) ==> r == Undefined
    ensures v.Obj? && k in v.fields ==> r == v.fields[k]
  {
    match v
    case Obj(m) => if k in m then m[k] else Undefined
    case Str(s) =>
      if k == "length" then Num(|s|)
      else if ParseIndex(k).Some? && ParseIndex(k).value < |s| then Str([s[ParseIndex(k).value]])
      else Undefined
    case Arr(a) =>
      if k == "length" then Num(|a|)
      else if ParseIndex(k).Some? && ParseIndex(k).value < |a| then a[ParseIndex(k).value]
      else Undefined
    case _ => Undefined
  }

  // ---------------------------------------------------------------------
  // parseInt

  /** StrWhiteSpaceChar: the characters `parseInt` skips before the number. */
  predicate IsSpace(c: char) {
    var u := c as int;
    || (0x09 <= u <= 0x0D) || u == 0x20 || u == 0xA0 || u == 0x1680
    || (0x2000 <= u <= 0x200A) || u == 0x2028 || u == 0x2029 || u == 0x202F
    || u == 0x205F || u == 0x3000 || u == 0xFEFF
  }

  function TrimStart(s: string): (r: string)
    ensures |r| <= |s| && r == s[|s| - |r|..]
    ensures |r| > 0 ==> !IsSpace(r[0])
  {
    if |s| > 0 && IsSpace(s[0]) then TrimStart(s[1..]) else s
  }

  /** The longest prefix of decimal digits. */
  function LeadingDigits(s: string): (r: string)
    ensures AllDigits(r) && r <= s
    ensures |r| < |s| ==> !IsDigit(s[|r|])
  {
    if |s| > 0 && IsDigit(s[0]) then [s[0]] + LeadingDigits(s[1..]) else []
  }

  predicate IsHexDigit(c: char) {
    IsDigit(c) || ('a' <= c <= 'f') || ('A' <= c <= 'F')
  }

  function HexDigitValue(c: char): nat
    requires IsHexDigit(c)
  {
    if IsDigit(c) then DigitValue(c)
    else if 'a' <= c <= 'f' then (c as int - 'a' as int + 10) as nat
    else (c as int - 'A' as int + 10) as nat
  }

  /** The longest prefix of hexadecimal digits. */
  function LeadingHex(s: string): (r: string)
    ensures forall i :: 0 <= i < |r| ==> IsHexDigit(r[i])
    ensures r <= s
  {
    if |s| > 0 && IsHexDigit(s[0]) then [s[0]] + LeadingHex(s[1..]) else []
  }

  function HexValue(s: string): nat
    requires forall i :: 0 <= i < |s| ==> IsHexDigit(s[i])
  {
    if |s| == 0 then 0 else HexValue(s[..|s| - 1]) * 16 + HexDigitValue(s[|s| - 1])
  }

  /** The unsigned part of `parseInt`: "0x"/"0X" followed by hexadecimal
      digits, or decimal digits; the number ends at the first other
      character. `None` is NaN. */
  function ParseMagnitude(u: string): Option<nat> {
    if |u| >= 2 && u[0] == '0' && (u[1] == 'x' || u[1] == 'X') then
      var h := LeadingHex(u[2..]);
      if |h| == 0 then None else Some(HexValue(h))
    else
      var d := LeadingDigits(u);
      if |d| == 0 then None else Some(DigitsValue(d))
  }

  /** `parseInt(s)` with no radix: leading white space, then an optional
      sign, then the magnitude. `None` is NaN. */
  function ParseIntText(s: string): Option<int> {
    var t := TrimStart(s);
    var signed := |t| > 0 && (t[0] == '-' || t[0] == '+');
    var m := ParseMagnitude(if signed then t[1..] else t);
    match m
    case None => None
    case Some(v) => Some(if signed && t[0] == '-' then -(v as int) else v as int)
  }

  /** `parseInt(v)`: a number is its own value, a string is parsed, every
      other value reads as NaN (`None`). */
  function ParseInt(v: Value): (r: Option<int>)
    ensures v.Num? ==> r == Some(v.n)
    ensures v.Undefined? || v.Null? || v.Bool? || v.Obj? ==> r == None
  {
    match v
    case Num(n) => Some(n)
    case Str(s) => ParseIntText(s)
    case _ => None
  }

  lemma {:induction false} LeadingDigitsOfDigits(s: string, rest: string)
    requires AllDigits(s)
    requires |rest| > 0 ==> !IsDigit(rest[0])
    ensures LeadingDigits(s + rest) == s
  {
    if |s| > 0 {
      assert (s + rest)[1..] == s[1..] + rest;
      LeadingDigitsOfDigits(s[1..], rest);
    } else {
      assert s + rest == rest;
    }
  }

  lemma TrimStartKeeps(s: string)
    requires |s| > 0 && !IsSpace(s[0])
    ensures TrimStart(s) == s
  {
  }

  /** Text after a number that `parseInt` does not read as part of it. */
  predicate Terminates(rest: string) {
    |rest| > 0 ==> !IsDigit(rest[0]) && rest[0] != 'x' && rest[0] != 'X'
  }

  lemma MagnitudeOfDecimal(n: nat, rest: string)
    requires Terminates(rest)
    ensures ParseMagnitude(Decimal(n) + rest) == Some(n)
  {
    var d := Decimal(n);
    DecimalValue(n);
    LeadingDigitsOfDigits(d, rest);
    if n == 0 {
      assert |d + rest| >= 2 ==> (d + rest)[1] == rest[0];
    } else {
      assert (d + rest)[0] == d[0];
    }
  }

  /** Text starting with a digit is parsed by its magnitude alone, and a
      minus sign in front negates it. */
  lemma ParseIntTextOfDigits(d: string, rest: string, v: nat)
    requires |d| > 0 && IsDigit(d[0]) && ParseMagnitude(d + rest) == Some(v)
    ensures ParseIntText(d + rest) == Some(v)
    ensures ParseIntText("-" + d + rest) == Some(-(v as int))
  {
    var u := d + rest;
    assert u[0] == d[0];
    TrimStartKeeps(u);
    var m := "-" + d + rest;
    assert m[0] == '-';
    TrimStartKeeps(m);
    assert m[1..] == u;
  }

  /** `parseInt` reads back `String(n)`, also with a minus sign in front and
      with trailing text that is not part of a number. */
  lemma ParseIntOfDecimal(n: nat, rest: string)
    requires Terminates(rest)
    ensures ParseIntText(Decimal(n) + rest) == Some(n)
    ensures ParseIntText("-" + Decimal(n) + rest) == Some(-(n as int))
  {
    MagnitudeOfDecimal(n, rest);
    ParseIntTextOfDigits(Decimal(n), rest, n);
  }
}

=== FILE: platform.dfy ===
/** The host the stage runs on and the two `path` operations the core uses.
    Path normalisation (`..`, repeated separators, drive letters) is not
    modelled: a join is a concatenation around the platform separator. */
module Platform {

  /** `process.platform.startsWith('win')` and `process.arch === 'x64'`. */
  datatype Host = Host(windows: bool, x64: bool)

  /** Directories the stage takes from the toolchain core and the installer
      helpers (`getHomeDir`, `getCacheDir`, `getEnvDir`, `getEnvBinDir`). */
  datatype Dirs = Dirs(homeDir: string, cacheDir: string, envDir: string, envBinDir: string)

  function Separator(h: Host): char {
    if h.windows then '\\' else '/'
  }

  /** Characters `path.basename` splits on: '/' everywhere, '\\' on Windows too. */
  predicate IsSeparator(h: Host, c: char) {
    c == '/' || (h.windows && c == '\\')
  }

  /** `path.join(dir, name)` for a non-empty directory and a plain name. */
  function Join(h: Host, dir: string, name: string): (r: string)
    ensures |r| == |dir| + 1 + |name|
    ensures r[..|dir|] == dir && r[|dir|] == Separator(h) && r[|dir| + 1..] == name
  {
    dir + [Separator(h)] + name
  }

  /** The last path segment: everything after the last separator. */
  function LastSegment(h: Host, p: string): string {
    if |p| == 0 || IsSeparator(h, p[|p| - 1]) then []
    else LastSegment(h, p[..|p| - 1]) + [p[|p| - 1]]
  }

  /** `path.basename(p)`: trailing separators are ignored. */
  function Basename(h: Host, p: string): string {
    if |p| > 0 && IsSeparator(h, p[|p| - 1]) then Basename(h, p[..|p| - 1]) else LastSegment(h, p)
  }

  lemma {:induction false} LastSegmentAfterSeparator(h: Host, prefix: string, name: string)
    requires |prefix| > 0 && IsSeparator(h, prefix[|prefix| - 1])
    requires forall i :: 0 <= i < |name| ==> !IsSeparator(h, name[i])
    ensures LastSegment(h, prefix + name) == name
  {
    var p := prefix + name;
    if |name| == 0 {
      assert p == prefix;
    } else {
      assert p[..|p| - 1] == prefix + name[..|name| - 1];
      LastSegmentAfterSeparator(h, prefix, name[..|name| - 1]);
      assert name == name[..|name| - 1] + [name[|name| - 1]];
    }
  }

  /** The base name of a joined path is the name that was joined. */
  lemma BasenameOfJoin(h: Host, dir: string, name: string)
    requires name != [] && forall i :: 0 <= i < |name| ==> !IsSeparator(h, name[i])
    ensures Basename(h, Join(h, dir, name)) == name
  {
    var prefix := dir + [Separator(h)];
    assert Join(h, dir, name) == prefix + name;
    LastSegmentAfterSeparator(h, prefix, name);
  }
}

=== FILE: seqs.dfy ===
/** Order-preserving removal of one value from a sequence:
    `args.filter(arg => arg !== x)`. */
module Seqs {

  function Without(xs: seq<string>, x: string): seq<string> {
    if |xs| == 0 then [] else if xs[0] == x then Without(xs[1..], x) else [xs[0]] + Without(xs[1..], x)
  }

  /** The filter removes every occurrence of the value and keeps every other
      value as often as it occurs. */
  lemma {:induction false} WithoutRemovesOnly(xs: seq<string>, x: string)
    ensures multiset(Without(xs, x)) == multiset(xs)[x := 0]
  {
    if |xs| > 0 {
      WithoutRemovesOnly(xs[1..], x);
      assert xs == [xs[0]] + xs[1..];
    }
  }

  /** `a` is `b` with some elements dropped, the rest in their order. */
  ghost predicate IsSubsequence<T>(a: seq<T>, b: seq<T>)
    decreases |b|
  {
    |a| == 0 || (|b| > 0 && if a[0] == b[0] then IsSubsequence(a[1..], b[1..]) else IsSubsequence(a, b[1..]))
  }

  /** The filter keeps the survivors in their original order. */
  lemma {:induction false} WithoutIsSubsequence(xs: seq<string>, x: string)
    ensures IsSubsequence(Without(xs, x), xs)
  {
    if |xs| > 0 {
      WithoutIsSubsequence(xs[1..], x);
      var r := Without(xs, x);
      if xs[0] == x {
        var t := Without(xs[1..], x);
        if |t| > 0 {
          WithoutRemovesOnly(xs[1..], x);
          assert t[0] in multiset(t);
        }
      } else {
        assert r[1..] == Without(xs[1..], x);
      }
    }
  }
}

=== FILE: virtualenv.dfy ===
/** Creating the managed virtual environment and installing the toolchain
    package into it: `cleanVirtualEnvDir`, the three creation strategies and
    `installPIOCore`. Process exit codes and filesystem answers are oracle
    inputs. */
module Virtualenv {
  import opened Wrappers
  import opened Platform
  import opened Effects
  import opened Failures
  import Seqs

  const VIRTUALENV_URL: string := "https://pypi.python.org/packages/source/v/virtualenv/virtualenv-14.0.6.tar.gz"
  const DEVELOP_URL: string := "https://github.com/platformio/platformio/archive/develop.zip"
  const SCRIPT_NAME: string := "virtualenv.py"
  const NO_CACHE: string := "--no-cache-dir"

  /** The effects of one step and the failure it ends in, if any. */
  datatype Attempt = Attempt(trace: seq<Effect>, failure: Option<Failure>)

  datatype Cleaned = Cleaned(trace: seq<Effect>, ok: bool)

  /** `cleanVirtualEnvDir()`: remove the environment directory if there is
      one; the answer is false only when that removal throws. */
  function CleanVirtualEnvDir(d: Dirs, present: bool, removable: bool): (r: Cleaned)
    ensures !present ==> r.trace == [] && r.ok
    ensures present ==> r.trace == [Remove(d.envDir)] && (r.ok <==> removable)
  {
    if !present then Cleaned([], true) else Cleaned([Remove(d.envDir)], removable)
  }

  /** `conda --version`, the probe of `isCondaInstalled`. */
  const CONDA_PROBE: Effect := Run("conda", ["--version"])

  /** `createVirtualenvWithConda()`'s command. */
  function CondaCreate(d: Dirs): Effect {
    Run("conda", ["create", "--yes", "--quiet", "python=2", "--prefix", d.envDir])
  }

  /** `createVirtualenvWithUser(python)`'s command. */
  function UserVirtualenv(d: Dirs, python: string): Effect {
    Run("virtualenv", ["-p", python, d.envDir])
  }

  predicate IsScript(h: Host, item: string) {
    Basename(h, item) == SCRIPT_NAME
  }

  /** `listTreeSync(dir).find(item => basename(item) === 'virtualenv.py')`:
      the position of the first entry named `virtualenv.py`. */
  function FindScript(h: Host, tree: seq<string>): (r: Option<nat>)
    ensures r.Some? ==> r.value < |tree| && IsScript(h, tree[r.value])
    ensures r.Some? ==> forall j :: 0 <= j < r.value ==> !IsScript(h, tree[j])
    ensures r.None? ==> forall j :: 0 <= j < |tree| ==> !IsScript(h, tree[j])
  {
    if |tree| == 0 then None
    else if IsScript(h, tree[0]) then Some(0)
    else match FindScript(h, tree[1..])
      case None => None
      case Some(i) => Some(i + 1)
  }

  /** Oracle answers for `createVirtualenvWithDownload`. */
  datatype DownloadWorld = DownloadWorld(
    archive: Option<string>,     // what `download` returned; None when it threw
    extracted: Option<string>,   // what `extractTarGz` returned; None when it threw
    tree: seq<string>,           // `fs.listTreeSync` of the extracted directory
    scriptExit: int)             // exit code of `python virtualenv.py envDir`

  function ArchiveDownload(h: Host, d: Dirs): Effect {
    Download(VIRTUALENV_URL, Join(h, d.cacheDir, "virtualenv.tar.gz"))
  }

  /** `createVirtualenvWithDownload(python)`: download the pinned virtualenv
      archive, extract it, find `virtualenv.py`, run it with the interpreter
      against the environment directory, then remove the extracted tree
      whatever the exit code. Each missing answer is a failure. */
  function CreateWithDownload(h: Host, d: Dirs, python: string, w: DownloadWorld): (r: Attempt)
    ensures |r.trace| >= 1 && r.trace[0] == ArchiveDownload(h, d)
    ensures forall i :: 1 <= i < |r.trace| ==> !r.trace[i].Download?
    ensures w.archive.None? ==> r == Attempt([ArchiveDownload(h, d)], Some(DownloadFailed))
    ensures w.archive.Some? && w.extracted.None? ==>
              r == Attempt([ArchiveDownload(h, d), Extract(w.archive.value)], Some(ExtractFailed))
    ensures w.archive.Some? && w.extracted.Some? && FindScript(h, w.tree).None? ==>
              r.failure == Some(ScriptNotFound) && !RunsProgram(r.trace, python)
    ensures w.archive.Some? && w.extracted.Some? && FindScript(h, w.tree).Some? ==>
              && |r.trace| == 4
              && r.trace[|r.trace| - 2] == Run(python, [w.tree[FindScript(h, w.tree).value], d.envDir])
              && r.trace[|r.trace| - 1] == Remove(w.extracted.value)
              && (r.failure.None? <==> w.scriptExit == 0)
              && (r.failure.Some? ==> r.failure.value == VirtualenvFailed(w.scriptExit))
    ensures r.failure.None? ==> w.scriptExit == 0
  {
    var download := [ArchiveDownload(h, d)];
    match w.archive
    case None => Attempt(download, Some(DownloadFailed))
    case Some(archive) =>
      var unpacked := download + [Extract(archive)];
      match w.extracted
      case None => Attempt(unpacked, Some(ExtractFailed))
      case Some(dst) =>
        match FindScript(h, w.tree)
        case None =>
          assert !RunsProgram(unpacked, python);
          Attempt(unpacked, Some(ScriptNotFound))
        case Some(i) =>
          Attempt(unpacked + [Run(python, [w.tree[i], d.envDir]), Remove(dst)],
                  if w.scriptExit == 0 then None else Some(VirtualenvFailed(w.scriptExit)))
  }

  /** The `pip` that installs the toolchain: the environment's own in
      development mode, whatever `pip` is on the search path otherwise. */
  function PipProgram(h: Host, d: Dirs, development: bool): string {
    if development then Join(h, d.envBinDir, "pip") else "pip"
  }

  /** The package: the development branch archive, or the released package. */
  function PipPackage(development: bool): string {
    if development then DEVELOP_URL else "platformio"
  }

  function PipArgs(development: bool): seq<string> {
    ["install", NO_CACHE, "-U", PipPackage(development)]
  }

  lemma RetryArgs(package: string)
    requires package == DEVELOP_URL || package == "platformio"
    ensures Seqs.Without(["install", NO_CACHE, "-U", package], NO_CACHE) == ["install", "-U", package]
  {
    var args := ["install", NO_CACHE, "-U", package];
    assert |package| != |NO_CACHE|;
    assert args[1..][1..] == ["-U", package];
    assert Seqs.Without([package], NO_CACHE) == [package] by {
      assert [package][1..] == [];
    }
    assert Seqs.Without(["-U", package], NO_CACHE) == ["-U", package] by {
      assert ["-U", package][1..] == [package];
    }
  }

  /** `installPIOCore()`: `pip install --no-cache-dir -U <package>`; if that
      exits non-zero, the same command once more with `--no-cache-dir`
      dropped and the other arguments kept in order. */
  function InstallPioCore(h: Host, d: Dirs, development: bool, firstExit: int, secondExit: int): (r: Attempt)
    ensures 1 <= |r.trace| <= 2
    ensures forall i :: 0 <= i < |r.trace| ==> r.trace[i].Run? && r.trace[i].program == PipProgram(h, d, development)
    ensures r.failure.None? <==> firstExit == 0 || secondExit == 0
    ensures r.failure.Some? ==> r.failure.value == PipFailed(secondExit)
  {
    var program := PipProgram(h, d, development);
    var args := PipArgs(development);
    if firstExit == 0 then Attempt([Run(program, args)], None)
    else
      Attempt([Run(program, args), Run(program, Seqs.Without(args, NO_CACHE))],
              if secondExit == 0 then None else Some(PipFailed(secondExit)))
  }

  /** At most two `pip` runs: the full command first, and a second one
      exactly when the first failed, with `--no-cache-dir` dropped and the
      other arguments in their order. */
  lemma PipRetryDropsOnlyCacheFlag(h: Host, d: Dirs, development: bool, firstExit: int, secondExit: int)
    ensures var r := InstallPioCore(h, d, development, firstExit, secondExit);
            && r.trace[0] == Run(PipProgram(h, d, development), PipArgs(development))
            && (|r.trace| == 2 <==> firstExit != 0)
            && (|r.trace| == 2 ==> r.trace[1].args == ["install", "-U", PipPackage(development)])
  {
    RetryArgs(PipPackage(development));
  }
}

=== FILE: wrappers.dfy ===
/** Optional values, used for JavaScript's `undefined`/`null` results and for
    oracle answers that may be absent. */
module Wrappers {

  datatype Option<+T> = None | Some(value: T)
}
